=== FILE: README.md ===
# d3-list-graph core, modelled in Dafny

d3-list-graph draws a directed acyclic graph as columns of node lists. This
project models the rules that decide what the visualisation shows. It leaves
out the drawing itself. The modelled rules are:

- **Walks** (`Graph`, `Traversal`, `TraversalProps`, `Diamond`, `CloneLink`). The graph is
  a map from node id to a record with `parents`, `childRefs`, `clone`,
  `originalNode`, `clones` and `links`.
  - `collectInclClones` yields a node's clone group.
  - `up`, `down` and `upAndDown` are the clone-aware recursive walks. Each walk
    is a function that returns the callback invocations it makes, in order.
  - The walks keep no visited set and no depth bound. Their termination rests
    on an acyclicity precondition: a rank on clone groups that every step
    decreases.
  - The properties proved about them say that each walk reports *exactly* the
    edges or nodes of an independent reachability definition (`Above`,
    `Reaches`). A diamond shows that nothing is deduplicated, and a parent
    linked to a clone of its child shows how clone ids count.
- **Hover and lock marks** (`Highlight`, `Lock`).
  - `highlightNodes`/`dehighlightNodes` set the `hovering` marks 0/1/2 and
    collect the link ids to emphasise per class name.
  - `toggleLock` keeps a single locked node.
- **The `Events` listener stack** (`Events`). It covers `on`, `off` and
  `trigger`, with per-listener `times` counters.
- **Sort state** (`Sorting`). It covers the per-column order cycling of the
  source topbar, the bundled topbar with its global sorting, and the global
  order rule of the list graph.
- **The context menu's debounced buttons** (`ContextMenu`). It covers the query
  mode cycle, the tentative and committed query and root values, the commit
  rules, and the button layout arithmetic.
- **Viewport rules** (`Viewport`). It covers the bit-packed classification of
  link ends outside the view, the scroll clamps, the pointer and drag flags, and
  the active level.

Pixel values are integers. A walk's callbacks are modelled as data:
`Invocation(callback, node, child)`.

## Model

| member | source | states |
|---|---|---|
| Graph.CollectInclClones | dist/listGraph.js:145-159 | The list starts with the node's original (the node itself unless it is a clone), followed by exactly the original's clones in order; its length is one more than the number of clones |
| Graph.CollectedAreGroup | dist/listGraph.js:145-159 | Every collected node is in the graph and belongs to the start node's clone group |
| Graph.GroupIsCollected | dist/listGraph.js:145-159 | Conversely, every member of the start node's clone group, the node itself included, is collected |
| Graph.CloneAndOriginalCollectEqual | dist/listGraph.js:145-159 | A clone and its original yield equal lists |
| Graph.ArrayToFakeObjs | dist/listGraph.js:126-134 | The result has the input's length, and its i-th object carries the input's (len-1-i)-th id |
| Graph.ArrayToFakeObjsTwice | dist/listGraph.js:126-134 | Wrapping the ids read back from the fake objects restores the original order |
| TraversalProps.UpSound | src/scripts/composition/traversal.js:6-18 | Every invocation of `up` is either a top-level report of a start-group member with the given child, or an edge strictly above the start node, and its node lies no deeper than the start |
| TraversalProps.UpStartsWithLastMember | src/scripts/composition/traversal.js:9-12 | Members are visited from the last to the first: given a child, the first invocation reports the last member of the group with that child |
| TraversalProps.DownSound | src/scripts/composition/traversal.js:20-30 | Every node `down` reports is in the graph and reachable downward from the start: in its clone group or below a child of a group member |
| TraversalProps.DownStartsWithLastMember | src/scripts/composition/traversal.js:21-24 | Members are visited from the last to the first: the first report of `down` is the last member of the group |
| TraversalProps.UpGroupAgree | src/scripts/composition/traversal.js:6-18 | `up` from any member of a clone group, with the same child, makes exactly the same reports: the walk starts from `collectInclClones`, which is the same for the whole group |
| TraversalProps.DownGroupAgree | src/scripts/composition/traversal.js:20-30 | `down` from any member of a clone group makes exactly the same reports |
| Traversal.UpAndDown | src/scripts/composition/traversal.js:32-40 | The whole `up` walk comes first, reported with `callbackUp`. The whole `down` walk follows, reported with `callbackDown` when one is given and with `callbackUp` otherwise |
| TraversalProps.UpOmitsStartGroup | src/scripts/composition/traversal.js:9-12 | Without a child, `up` never reports the start node or any of its clones |
| TraversalProps.UpReportsParentEdges | src/scripts/composition/traversal.js:14-16 | Every `(x, c)` reported by `up` has `x` in the clone group of a parent of `c` |
| TraversalProps.UpReportsGroupWithChild | src/scripts/composition/traversal.js:9-12 | Given a child, `up` reports every member of the group with that child |
| TraversalProps.UpComplete | src/scripts/composition/traversal.js:6-18 | Every edge above the start node is reported, whatever child the walk started with |
| TraversalProps.UpExactlyAbove | src/scripts/composition/traversal.js:6-18 | `up` without a child reports an invocation if and only if it is an edge above the start node |
| TraversalProps.DownReportsGroup | src/scripts/composition/traversal.js:21-24 | `down` reports every member of the start node's clone group, the start node included |
| TraversalProps.DownContainsChildWalk | src/scripts/composition/traversal.js:26-28 | The walk from any child of any group member, original or clone, is contained in the walk from the group |
| TraversalProps.DownComplete | src/scripts/composition/traversal.js:20-30 | Every node reachable downward is reported |
| TraversalProps.DownExactlyReachable | src/scripts/composition/traversal.js:20-30 | `down` reports a node if and only if it is reachable downward from the start |
| TraversalProps.DownClosed | src/scripts/composition/traversal.js:20-30 | The reported nodes contain the start node and are closed under `childRefs` and under clone expansion |
| Diamond.UpTwoParents | src/scripts/composition/traversal.js:14-16 | For a node without clones and with parents p then q, `up` without a child is q's walk followed by p's walk, each with the node as child |
| Diamond.DownTwoChildren | src/scripts/composition/traversal.js:23-28 | For a node without clones and with children c then e, `down` reports the node, then e's walk, then c's walk |
| Diamond.DiamondDown | src/scripts/composition/traversal.js:23-28 | In the diamond R→A→C, R→B→C, `down(R)` is exactly R, B, C, A, C: C is reported once per path, children from last to first |
| Diamond.DiamondUp | src/scripts/composition/traversal.js:9-16 | `up(C)` reports (B,C), (R,B), (A,C), (R,A): parents from last to first, and R once per path |
| Highlight.ClassNameOrDefault | dist/listGraph.js:800 | An absent or empty class name falls back to `'hovering'`; any other class name is kept |
| CloneLink.UpFromC | src/scripts/composition/traversal.js:6-18 | With P linked to K, the clone of its child C, `up(C)` walks up from P once with K as child and once with C |
| CloneLink.DownFromC | src/scripts/composition/traversal.js:20-30 | `down(C)` reports K, the last member of C's group, then C |
| CloneLink.UpCallsRecordLink | dist/listGraph.js:807-816 | P's link to K is recorded for the child K and equally for the child C, because K carries C's `id` |
| CloneLink.HoverRecordsCloneLink | dist/listGraph.js:793-831 | Hovering C records link 7 twice, once per edge the walk reports, although P has a single link |
| Highlight.UpLinkIds | dist/listGraph.js:807-816 | The up-callback records an id if and only if the parent has a link with that id whose target shares its `id` with the child walked from, that is, targets any member of the child's clone group |
| Highlight.DownLinkIds | dist/listGraph.js:819-824 | The down-callback records every link id of the node, last link first |
| Highlight.MarkWalk | dist/listGraph.js:807-824 | The nodes the callbacks run on get the level, and every other node keeps its mark |
| Highlight.InvocationLinkIds | dist/listGraph.js:807-824 | One invocation records an id if and only if its node has a link with that id, any link for the down-callback and, for the up-callback, only a link whose target shares its `id` with the child |
| Highlight.LinkWalk | dist/listGraph.js:807-824 | An id is recorded if and only if some invocation records it |
| Highlight.HighlightNodes | dist/listGraph.js:793-831 | The node gets `hovering = 1`, and so does its original if it is a clone. Every other touched node gets 2 and untouched nodes keep their marks. The class's link list holds exactly the ids the invocations record (an up-call counts a link to any member of the child's clone group), and the other classes' lists are unchanged |
| Highlight.DehighlightNodes | dist/listGraph.js:863-884 | The node, its original, and every node `upAndDown` reaches get `hovering = 0`; other nodes keep their marks; `currentLinks` is unchanged |
| Highlight.HoverRoundTrip | dist/listGraph.js:793-884 | Leaving right after entering returns every touched node to 0 and leaves every other node's mark as it was before entering |
| Highlight.GroupTouched | dist/listGraph.js:793-831 | The hover walks from a node touch every member of its clone group |
| Highlight.GroupTouchesAlike | dist/listGraph.js:793-884 | The hover walks from two members of one clone group touch exactly the same nodes |
| Highlight.HighlightRecordsExactly | dist/listGraph.js:807-824 | The class's list holds an id if and only if it belongs to a parent's link whose target is in the clone group of the child `up` walked from, or to any link of a node `down` reached |
| Lock.ToggleLock | dist/listGraph.js:694-730 | The locked and clicked elements are compared by the `id` a node shares with its clones. With nothing locked, the clicked element is locked under its id. Clicking any element of the locked group, the locked one or a clone of it, only unlocks that id and leaves nothing locked. Clicking an element of another group unlocks the old id before locking the new one |
| Lock.ToggleLockKeepsSingleton | dist/listGraph.js:694-730 | Replaying the lock and unlock steps from the old locked id yields exactly the new one, so at most one id is ever locked |
| Lock.ToggleLockTwice | dist/listGraph.js:694-730 | Clicking elements of one group twice returns to the locked ids of the start, from the unlocked state or from the state where that group is locked; clicking the same element twice also restores the locked element |
| Lock.Carriers | dist/listGraph.js:735-737 | An element is selected for an id if and only if it is in the document and is that id's original or one of its clones |
| Lock.ApplyLockActions | dist/listGraph.js:732-762 | Locking or unlocking, from however many elements carry the id, never changes the link lists of classes other than `'lock'` |
| Lock.LockFromNothing | dist/listGraph.js:694-747 | Locking with nothing locked runs a highlight from every element carrying the id, in document order, and the last one decides. The original and the last such element end marked directly, every other member of the group indirectly. `'lock'` holds exactly the ids the walk from the clicked element records |
| Lock.HighlightMarksGroup | dist/listGraph.js:793-831 | A highlight from one member of a clone group leaves every member other than itself and the original marked indirectly |
| Lock.HighlightRecordsForGroup | dist/listGraph.js:793-831 | A highlight from any member of a clone group records the same link ids: those of the walk from any other member |
| Lock.UnlockClearsGroup | dist/listGraph.js:749-762 | Unlocking an id sets to 0 every node the hover walks from any member of the group touch, whatever the document order, and leaves every class's link list as it was |
| Lock.LockThenClickGroup | dist/listGraph.js:694-762 | Locking by clicking one element and then clicking it or any of its clones leaves nothing locked and every node the lock had touched at 0 |
| Events.On | dist/listGraph.js:1607-1625 | A non-function callback returns false and changes nothing. Otherwise the listener is appended, and the result is its index, the list length minus one. A non-finite `times` becomes unlimited, and other events are unchanged |
| Events.Splice | dist/listGraph.js:1643 | An in-range index removes exactly that element and shifts the rest. A negative index counts from the end. An index past the end removes nothing |
| Events.Off | dist/listGraph.js:1641-1648 | An unregistered event reports false and changes nothing. Otherwise the event's list is spliced at the index and the result is true |
| Events.Trigger | dist/listGraph.js:1662-1680 | An unregistered event reports false. Otherwise the resulting list and the invoked callbacks equal the front-to-back reference definitions `Kept`/`Fired`: each listener with a non-zero count is invoked, last listener first, and keeps its place with the count decremented; each listener with count 0 is removed |
| Events.TriggerStep | dist/listGraph.js:1667-1675 | Visiting index i of a partly processed list finds the original listener there; decrementing a truthy count in place, or splicing out a 0 count, extends the processed part by one, and the callback is invoked exactly when the count is truthy |
| Events.ListenerLifetime | dist/listGraph.js:1662-1680 | A listener with `times = n >= 0` is invoked on exactly the first n triggers; after trigger n+1 it is gone |
| Events.NegativeTimesNeverExpire | dist/listGraph.js:1662-1680 | A listener with a negative `times` is invoked on every trigger and never removed |
| Events.UnlimitedLifetime | dist/listGraph.js:1662-1680 | A listener with an infinite count is invoked once on each of k triggers and is still there afterwards, its count unchanged |
| Events.NotFiniteTimesNeverExpire | dist/listGraph.js:1607-1625 | A `times` that is not a finite number (absent, `null`, a string, `Infinity`) is stored as `Infinity`, so the listener is invoked on every one of k triggers and never removed |
| Events.OnOffRoundTrip | dist/listGraph.js:1607-1648 | The index `on` returns is the handle for `off`: `off` with it right after `on` removes exactly the new listener, restoring the stack when the event had a list and leaving an empty list otherwise |
| Sorting.InitSorting | src/scripts/composition/topbar.js:144-157 | There is one entry per column index, and every entry starts with no type and order 0 |
| Sorting.FlipOrder | src/scripts/composition/topbar.js:190-202 | The new order is always -1 or 1, and it is 1 exactly when the old order was -1 |
| Sorting.SortColumn | src/scripts/composition/topbar.js:174-208 | The column takes the requested type, its order flips (1 iff it was -1), and the new order is the one handed to `vis.sortColumn`. Other columns are untouched |
| Sorting.SortAlternates | src/scripts/composition/topbar.js:144-208 | On a fresh column the orders go -1, 1, -1, … whatever types are requested, so a type change does not reset the alternation. Other columns keep their state |
| Sorting.BundleInitialGlobalEl | dist/listGraph.js:1016-1068 | A global sort button is recorded as `global.el` at construction exactly when `sortBy` is `precision`, `recall` or `name` |
| Sorting.BundleSortColumn | dist/listGraph.js:1210-1249 | A non-global call clears the global type. It then throws, with the columns unchanged and no `vis.sortColumn` call, exactly when no global button was ever recorded. Otherwise the `newSortType` flag is set iff the type changes, the order is 1 exactly when the column already had this type with order -1 and -1 otherwise, and other columns are untouched |
| Sorting.DefaultFirstColumnClickThrows | dist/listGraph.js:1210-1256 | Without a `sortBy` option, the first click on a column's sort button throws and leaves the whole sort state as it was, the global type being already unset |
| Sorting.BundleSameTypeAlternates | dist/listGraph.js:1210-1249 | Two clicks with the same type give opposite orders, and a click that throws throws again |
| Sorting.BundleSortAllColumns | dist/listGraph.js:1187-1208 | The clicked button is recorded as `global.el` and the global type becomes the requested one. Every column ends as a global `sortColumn` call would leave it, and no global call throws. The calls to `vis.sortColumn` follow `Object.keys` order |
| Sorting.GlobalOrder | src/scripts/composition/index.js:817-819 | The global order is always ±1, and it is 1 exactly when it was -1 and the sort type did not change |
| Sorting.GlobalOrderAlternates | src/scripts/composition/index.js:817-819 | After a type change, repeated same-type requests alternate -1, 1, -1, … |
| ContextMenu.NextQueryMode | src/scripts/composition/nodeContextMenu.js:479-490 | The result is never undefined. It is `or` exactly when the input is not a truthy mode (undefined or null), and a truthy mode always moves on to a different one |
| ContextMenu.QueryModeCycle | src/scripts/composition/nodeContextMenu.js:479-490 | Away from undefined the modes form a cycle of period exactly 4: a mode returns after k steps iff 4 divides k |
| ContextMenu.UpdateQuery | src/scripts/composition/nodeContextMenu.js:475-501 | A debounced click captures the node's mode only while none is captured. It starts the tentative mode from the captured one when the tentative mode is unset, then advances it. A direct call changes nothing |
| ContextMenu.QueryClicksFromIdle | src/scripts/composition/nodeContextMenu.js:492-501 | After k ≥ 1 debounced clicks the captured mode is the node's mode, and the tentative mode is k steps along the cycle from it |
| ContextMenu.QueryHandler | src/scripts/composition/nodeContextMenu.js:144-164 | A debounced commit does nothing iff the tentative mode equals the captured one; otherwise it queries with a truthy mode or unqueries with a falsy one. A direct call toggles. Both modes are reset to undefined in every branch |
| ContextMenu.QueryRoundTrip | src/scripts/composition/nodeContextMenu.js:144-164 | After k ≥ 1 clicks and a commit, nothing happens iff the node had a mode (null included) and 4 divides k. From undefined, four clicks end in an unquery with null. The menu is idle again |
| ContextMenu.QueryButtonFor | src/scripts/composition/nodeContextMenu.js:521-526 | The label is the shown mode, or "not queried" exactly when that mode is falsy. The button is semi-active with a truthy shown mode, and active when the node is queried |
| ContextMenu.QueryButtonWhileClicking | src/scripts/composition/nodeContextMenu.js:475-526 | A direct call shows the node's own mode, semi-active exactly when active. After k ≥ 1 clicks from idle the button shows the mode k steps along the cycle, "not queried" exactly when that mode is falsy, and on a node with a mode 4 clicks bring the node's own button back |
| ContextMenu.CheckRoot | src/scripts/composition/nodeContextMenu.js:431-444 | A debounced click captures `!!state` once, starts the tentative value from it, and negates the tentative value, which is what shows as checked |
| ContextMenu.RootClicksFromIdle | src/scripts/composition/nodeContextMenu.js:435-443 | After k ≥ 1 clicks the captured flag is the node's. The tentative value equals it after an even number of clicks and is its negation after an odd number |
| ContextMenu.RootHandler | src/scripts/composition/nodeContextMenu.js:176-186 | The root toggles iff the call is direct or the tentative value differs from the captured one, and both values are reset in every case |
| ContextMenu.RootRoundTrip | src/scripts/composition/nodeContextMenu.js:176-186 | k ≥ 1 debounced clicks followed by the commit toggle the root exactly when k is odd, and leave the menu idle |
| ContextMenu.ButtonOffsetY | src/scripts/composition/nodeContextMenu.js:289-297 | A button whose distance from the node is within the menu's rows lies wholly inside the menu's height (2 rows when querying, 3 otherwise) |
| ContextMenu.ButtonRowsStack | src/scripts/composition/nodeContextMenu.js:289-297 | The button nearest the node ends on the menu's bottom edge, and each step away from the node moves a button up by exactly one row |
| Viewport.LinkPointsOutside | src/scripts/composition/index.js:1017-1031 | A hidden node gives 16 whatever its position, and the code is always one of 0, 1, 2 and 16; which one a visible end gets is the position `Classify` assigns by the row thresholds |
| Viewport.PackRoundTrip | src/scripts/composition/index.js:956-1004 | Packing the source code with the target code shifted by two loses nothing: both positions can be read back |
| Viewport.PointsOutsideBits | src/scripts/composition/index.js:956-1004 | `& 4` is set exactly when the target is above the view and `& 8` exactly when it is below; a hidden target (64) sets neither. The same holds for `& 1`/`& 2` on the source |
| Viewport.UndocumentedCombination | src/scripts/composition/index.js:956-1004 | A hidden source with a target above the view packs to 20, which is not among the eleven documented values |
| Viewport.ClampIsNearest | src/scripts/composition/index.js:703-720 | Both clamp shapes give the interval point nearest to the unclamped value |
| Viewport.MousewheelColumn | src/scripts/composition/index.js:703-720 | A column with nothing to scroll is unchanged. Otherwise the offset moves by the wheel delta, kept within `[-scrollHeight, 0]`, and is exact whenever the moved value is in range |
| Viewport.MousewheelAdds | src/scripts/composition/index.js:708-713 | Wheel steps that stay in range add up |
| Viewport.DragStart | src/scripts/composition/index.js:537-541 | The first drag start sets `dragging` and blocks interactions. A start during a drag changes nothing |
| Viewport.DragEnd | src/scripts/composition/index.js:543-547 | Ending a drag clears `dragging` and unblocks interactions. Without a drag nothing changes |
| Viewport.DragKeepsFlagsInSync | src/scripts/composition/index.js:531-547 | Starting from `noInteractions == dragging`, both handlers keep the flags equal. Interactions are blocked during a drag and allowed after it ends |
| Viewport.ScrollbarMouseDown | src/scripts/composition/index.js:696-701 | Holding a scrollbar records where the press happened, makes it the active scrollbar, and blocks interactions and graph dragging. Other scrollbars are untouched |
| Viewport.GlobalMouseUp | src/scripts/composition/index.js:560-594 | `noInteractions` and `mouseDownOnContextMenu` are always cleared. A held scrollbar moves by the pointer's travel, kept within `[0, scrollHeight]`, and is let go, so dragging the graph is allowed again |
| Viewport.ScrollbarClickRoundTrip | src/scripts/composition/index.js:560-594 | Pressing a scrollbar and releasing the pointer where it went down leaves the scrollbar where it was, and releases every flag except `dragging` |
| Viewport.SetActiveLevel | src/scripts/composition/index.js:394-410 | The active level is the requested one raised to 0, so it is never negative. With a rooted node the blurred and focused levels count from the root's depth; otherwise they are shifted back by `noRootActiveLevelDiff` |
| Viewport.ActiveLevelHandsOver | src/scripts/composition/index.js:394-410 | With the root unchanged, each change blurs exactly the level the previous change focused |

## Left out

- Drawing: D3 selections, classes, transitions, SVG paths, bars, link emphasis and the `d3ListGraphNodeEnter`/`Leave` broadcasts are rendering only; the CSS classes a mark implies are not modelled.
- Node identity: each node element, original or clone, is its own map key, and clones point to their original through `originalNode`. A node shares its `id` with its clones; the model takes that id to be the key of the group's original. How the layout assigns the ids is not part of this model. The node elements' document order (`this.nodes`) is a parameter of the lock steps.
- Traversal.Up / Traversal.Down on cyclic graphs: the source has no guard and does not terminate; the model states acyclicity as a precondition (a depth rank for `up`, a height rank for `down`, both on clone groups).
- Highlight.HighlightNodes: the bar `copy`/`reference` flags and indicator updates are left out, as rendering.
- Events dispatching: `_dispatchEvent` and `broadcast` send DOM custom events and are left out.
- Events.Trigger: callbacks that change the stack while a trigger runs are not modelled; a callback is an opaque id.
- Events.On: `parseInt` is abstracted; the `times` argument is either a finite number, given as the integer `parseInt` truncates it to, or anything the bundled `isFinite` rejects (any non-number, or a non-finite number), which is stored as `Infinity`.
- Events.Off: the index is an integer; `splice` with a non-numeric index is not modelled.
- Delegated node actions: `toggleRoot`, `queryByNode`, `unqueryByNode` and `toggleQueryByNode` live in code that is not part of this model; the commit steps return which one they would call.
- Context menu timing: the debounce timer, `setTimeout` effects, `open`/`close`/`toggle` and the fill animations are left out; clicks and commits are explicit steps.
- clickQueryHandler: with debouncing disabled it calls `this.queryHandler()`, which the class does not define (the handler is spelt `queryHanlder`); `ContextMenu.QueryHandler` models the handler as defined, not that call.
- Viewport.GlobalMouseUp: the content offset it also sets goes through a d3 scale (`invertedHeightScale`) that is not part of this model; only the scrollbar's own clamp is modelled. `dragScrollbar` is left out for the same reason.
- Viewport event plumbing: `scrollY`, `checkNodeVisibility`, `checkGlobalClick` and `getBoundingRect` are DOM work.
- Sorting.GlobalOrder: the node reordering that `sortColumn`/`sortAllColumns` trigger goes through the layout, which is not part of this model; only the order rule is modelled.
- Sorting.BundleSortAllColumns: the bundled `sortAllColumns` passes each column as the string key `Object.keys` yields, and that string reaches `vis.sortColumn`; the model passes the column as an integer, so the string arithmetic that follows is not modelled (see Notes on the code).
- Lock.ToggleLock: the bundled `toggleLock` sets no `state.lock` flag and neither does the model; the `'lock'` class shares the `hovering` marks with hover highlighting, as in the code.

## Notes on the code

- The walks keep no visited set. In a diamond, a node is reported once per path (`Diamond.DiamondDown`).
- `dehighlightNodes` reads the class's link list but does not clear it (`Highlight.DehighlightNodes`). The list is reset only by the next `highlightNodes` for that class.
- The documentation of `pointsOutside` lists eleven values. The encoding produces sixteen, because a hidden end combines with every position of the other end (`Viewport.UndocumentedCombination`). The bit tests the documentation describes still hold (`Viewport.PointsOutsideBits`).
- In the bundled topbar, a click on a column's sort button resets `global.el` without checking it. Without a `sortBy` option nothing is recorded there until a global sort button is clicked, so such a click throws after clearing the global type (`Sorting.DefaultFirstColumnClickThrows`).
- The index `on` returns stays a valid handle for `off` only while no listener below it is removed: a trigger that splices out an exhausted listener shifts every later index down by one.
- Four debounced query clicks on a node whose mode is `undefined` end in `unqueryByNode(node, null)`, because `null !== undefined` (`ContextMenu.QueryRoundTrip`).
- A parent's link to a clone of its child is emphasised on hover: the up-callback compares the target's `id`, which clones share, with the child's. With both C and its clone K under P, hovering C records that link twice (`CloneLink.HoverRecordsCloneLink`).
- After a global sort, `vis.sortColumn` receives the column as the string key from `Object.keys`. Its `level + 1` then concatenates, so column "0" asks the layout for links up to level "01"; `level - 1` still subtracts. A click on a single column's button passes a number instead.

=== FILE: clone_link.dfy ===
/** A parent P with one link, 7, drawn to the clone K of its child C; both C
    and K list P as a parent. The up-callback compares the link target's
    `id` with the child's, and K shares its `id` with C, so hovering C
    records link 7 once for each of the two edges the walk reports. */
module CloneLink {
  import opened Wrappers
  import opened Graph
  import opened Traversal
  import opened TraversalProps
  import opened Highlight
  import opened Diamond

  const P: NodeId := 0
  const C: NodeId := 1
  const K: NodeId := 2

  function CloneGraph(): Graph {
    map[
      P := Node([], [], false, P, [], [Link(7, K)]),
      C := Node([P], [], false, C, [K], []),
      K := Node([P], [], true, C, [], [])]
  }

  function CloneDepth(): map<NodeId, nat> {
    map[P := 0, C := 1, K := 1]
  }

  function CloneHeight(): map<NodeId, nat> {
    map[P := 0, C := 0, K := 0]
  }

  lemma CloneKeys()
    ensures forall n | n in CloneGraph() :: n == P || n == C || n == K
  {
    assert CloneGraph().Keys == {P, C, K};
  }

  lemma CloneWellFormed()
    ensures WellFormed(CloneGraph())
    ensures Orig(CloneGraph(), P) == P && Orig(CloneGraph(), C) == C && Orig(CloneGraph(), K) == C
  {
    var g := CloneGraph();
    CloneKeys();
    forall n, j | n in g && 0 <= j < |g[n].parents|
      ensures g[n].parents[j] in g
    {
    }
    forall n, k | n in g && 0 <= k < |g[n].links|
      ensures g[n].links[k].target in g
    {
    }
    assert Closed(g);
  }

  lemma CloneRanked()
    ensures UpRanked(CloneGraph(), CloneDepth()) && DownRanked(CloneGraph(), CloneHeight())
  {
    var g, d := CloneGraph(), CloneDepth();
    CloneWellFormed();
    CloneKeys();
    forall n, j | n in g && 0 <= j < |g[n].parents|
      ensures d[Orig(g, g[n].parents[j])] < d[Orig(g, n)]
    {
      assert g[n].parents[j] == P;
    }
  }

  /** C's clone group is C followed by K. */
  lemma CollectC()
    ensures WellFormed(CloneGraph())
    ensures CollectInclClones(CloneGraph(), C) == [C, K]
    ensures CollectInclClones(CloneGraph(), P) == [P]
  {
    CloneWellFormed();
  }

  /** The walk up from member `m` of C's group: the single walk up from P
      with `m` as child. */
  lemma UpMemberOfC(i: nat, m: NodeId)
    requires i < 2 && m == [C, K][1 - i]
    ensures UpRanked(CloneGraph(), CloneDepth())
    ensures UpMemberWalks(CloneGraph(), CloneDepth(), C, None)[i] == [UpCall(P, m)]
  {
    var g, d := CloneGraph(), CloneDepth();
    CloneRanked();
    CollectC();
    var m' := UpMemberWalkAt(g, d, C, None, i);
    assert m' == m;
    UpParentWalkAt(g, d, C, m, 0);
    UpNoParent(g, d, P, m);
    assert UpParentWalks(g, d, C, m) == [[UpCall(P, m)]];
    FlattenOne([UpCall(P, m)]);
  }

  /** `up(C)` makes no top-level report and walks up from P once with K,
      the last member, as child, then once with C. */
  lemma UpFromC()
    ensures UpRanked(CloneGraph(), CloneDepth())
    ensures Up(CloneGraph(), CloneDepth(), C, None) == [UpCall(P, K), UpCall(P, C)]
  {
    var g, d := CloneGraph(), CloneDepth();
    CloneRanked();
    CollectC();
    var walks := UpMemberWalks(g, d, C, None);
    UpMemberOfC(0, K);
    UpMemberOfC(1, C);
    assert walks == [[UpCall(P, K)], [UpCall(P, C)]];
    FlattenTwo([UpCall(P, K)], [UpCall(P, C)]);
  }

  /** The walk down from member `m` of C's group reports `m` alone. */
  lemma DownMemberOfC(i: nat, m: NodeId)
    requires i < 2 && m == [C, K][1 - i]
    ensures DownRanked(CloneGraph(), CloneHeight())
    ensures DownMemberWalks(CloneGraph(), CloneHeight(), C)[i] == [m]
  {
    var g, h := CloneGraph(), CloneHeight();
    CloneRanked();
    CollectC();
    var m' := DownMemberWalkAt(g, h, C, i);
    assert m' == m;
    assert DownChildWalks(g, h, C, m) == [];
    assert Flatten<NodeId>([]) == [];
  }

  /** `down(C)` reports K, the last member, then C. */
  lemma DownFromC()
    ensures DownRanked(CloneGraph(), CloneHeight())
    ensures Down(CloneGraph(), CloneHeight(), C) == [K, C]
  {
    var g, h := CloneGraph(), CloneHeight();
    CloneRanked();
    CollectC();
    var walks := DownMemberWalks(g, h, C);
    DownMemberOfC(0, K);
    DownMemberOfC(1, C);
    assert walks == [[K], [C]];
    FlattenTwo([K], [C]);
  }

  /** The two up-calls from P, with K then C as child, then the two down-calls. */
  function HoverInvocations(): seq<Invocation> {
    [Invocation(CallbackUp, P, Some(K)), Invocation(CallbackUp, P, Some(C)),
     Invocation(CallbackDown, K, None), Invocation(CallbackDown, C, None)]
  }

  /** The hover walk from C: the two up-calls, then the two down-calls. */
  lemma HoverWalkFromC()
    ensures UpRanked(CloneGraph(), CloneDepth()) && DownRanked(CloneGraph(), CloneHeight())
    ensures UpAndDown(CloneGraph(), CloneDepth(), CloneHeight(), C, true) == HoverInvocations()
  {
    UpFromC();
    DownFromC();
  }

  /** P's link to K counts for the child K and for the child C alike. */
  lemma UpCallsRecordLink()
    ensures WellFormed(CloneGraph())
    ensures InvocationLinkIds(CloneGraph(), Invocation(CallbackUp, P, Some(K))) == [7]
    ensures InvocationLinkIds(CloneGraph(), Invocation(CallbackUp, P, Some(C))) == [7]
  {
    var g := CloneGraph();
    CloneWellFormed();
    assert UpLinkIds(g, [Link(7, K)], K) == [7] by {
      assert UpLinkIds(g, [Link(7, K)][..0], K) == [];
    }
    assert UpLinkIds(g, [Link(7, K)], C) == [7] by {
      assert UpLinkIds(g, [Link(7, K)][..0], C) == [];
    }
  }

  /** The up-calls alone record 7 twice. */
  lemma UpCallsRecordTwice()
    ensures WellFormed(CloneGraph())
    ensures NodesIn(CloneGraph(), HoverInvocations()[..2])
    ensures LinkWalk(CloneGraph(), HoverInvocations()[..2]) == [7, 7]
  {
    var g := CloneGraph();
    UpCallsRecordLink();
    var invs := HoverInvocations();
    var a, b := invs[0], invs[1];
    LinkWalkSnoc(g, [], a);
    LinkWalkSnoc(g, [a], b);
    assert [a] + [b] == invs[..2];
  }

  /** The down-calls to K and C, which have no links, add nothing. */
  lemma HoverInvocationsRecord()
    ensures WellFormed(CloneGraph())
    ensures NodesIn(CloneGraph(), HoverInvocations())
    ensures LinkWalk(CloneGraph(), HoverInvocations()) == [7, 7]
  {
    var g := CloneGraph();
    UpCallsRecordTwice();
    var invs := HoverInvocations();
    var c, e := invs[2], invs[3];
    assert InvocationLinkIds(g, c) == [];
    assert InvocationLinkIds(g, e) == [];
    LinkWalkSnoc(g, invs[..2], c);
    assert invs[..2] + [c] == invs[..3];
    LinkWalkSnoc(g, invs[..3], e);
    assert invs[..3] + [e] == invs;
  }

  /** The link ids the hover walk from C records, in order. */
  lemma HoverLinksFromC()
    ensures WellFormed(CloneGraph())
    ensures UpRanked(CloneGraph(), CloneDepth()) && DownRanked(CloneGraph(), CloneHeight())
    ensures NodesIn(CloneGraph(), UpAndDown(CloneGraph(), CloneDepth(), CloneHeight(), C, true))
    ensures LinkWalk(CloneGraph(), UpAndDown(CloneGraph(), CloneDepth(), CloneHeight(), C, true)) == [7, 7]
  {
    HoverWalkFromC();
    HoverInvocationsRecord();
  }

  /** Hovering C records link 7 twice: once for the edge (P, K) and once
      for (P, C), since K carries C's `id`. */
  lemma HoverRecordsCloneLink(s: HoverState)
    ensures UpRanked(CloneGraph(), CloneDepth()) && DownRanked(CloneGraph(), CloneHeight())
    ensures HighlightNodes(CloneGraph(), CloneDepth(), CloneHeight(), s, C, None).currentLinks["hovering"] == [7, 7]
  {
    HoverLinksFromC();
  }
}

=== FILE: context_menu.dfy ===
/** The node context menu's debounced buttons. A click on the query or root
    button only records a tentative value; a later "commit" step (the
    debounced handler firing) compares it with the value captured at the
    first click and acts only when they differ. Timers are not modelled:
    clicks and commits are explicit steps. */
module ContextMenu {
  import opened Wrappers

  /** A node's query mode. `Unset` is JavaScript's `undefined`, kept apart
      from `Null` because the menu tests `typeof … === 'undefined'` and
      compares with `!==`. */
  datatype QueryMode = Unset | Null | Or | And | Not

  /** JavaScript truthiness of a query mode. */
  predicate Queried(m: QueryMode) {
    m.Or? || m.And? || m.Not?
  }

  /** `nextQueryMode`: or, and, not, null, then or again; anything else
      (undefined or null) moves to or. */
  function NextQueryMode(m: QueryMode): (r: QueryMode)
    ensures !r.Unset?
    ensures r == Or <==> !Queried(m)
    ensures Queried(m) ==> r != m
  {
    match m
    case Or => And
    case And => Not
    case Not => Null
    case _ => Or
  }

  /** `NextQueryMode` applied `k` times. */
  function NextQueryModeN(m: QueryMode, k: nat): QueryMode {
    if k == 0 then m else NextQueryMode(NextQueryModeN(m, k - 1))
  }

  /** On the four modes other than `Unset` the cycle has period exactly 4:
      a mode comes back after `k` steps exactly when 4 divides `k`. */
  lemma {:induction false} QueryModeCycle(m: QueryMode, k: nat)
    requires !m.Unset?
    ensures NextQueryModeN(m, k) == NextQueryModeN(m, k % 4)
    ensures NextQueryModeN(m, k) == m <==> k % 4 == 0
  {
    if k >= 4 {
      QueryModeCycle(m, k - 4);
      NextQueryModeNAdd(m, k - 4, 4);
      assert !NextQueryModeN(m, k - 4).Unset?;
      QueryModeCycleOnce(NextQueryModeN(m, k - 4));
      assert (k - 4) % 4 == k % 4;
    } else {
      assert NextQueryModeN(m, 1) == NextQueryMode(m);
      assert NextQueryModeN(m, 2) == NextQueryMode(NextQueryMode(m));
      assert NextQueryModeN(m, 3) == NextQueryMode(NextQueryMode(NextQueryMode(m)));
    }
  }

  lemma QueryModeCycleOnce(m: QueryMode)
    requires !m.Unset?
    ensures NextQueryModeN(m, 4) == m
  {
  }

  lemma {:induction false} NextQueryModeNAdd(m: QueryMode, a: nat, b: nat)
    ensures NextQueryModeN(m, a + b) == NextQueryModeN(NextQueryModeN(m, a), b)
  {
    if b > 0 {
      NextQueryModeNAdd(m, a, b - 1);
    }
  }

  /** The menu's tentative and committed values. `None` roots are
      `undefined`. */
  datatype MenuState = MenuState(
    currentQueryMode: QueryMode,
    tempQueryMode: QueryMode,
    currentRootState: Option<bool>,
    tempRoot: Option<bool>)

  /** The state before any click and after every commit. */
  const Idle := MenuState(Unset, Unset, None, None)

  // ---------------------------------------------------------------------
  // query button

  /** The menu state after `updateQuery` and the mode the button shows. */
  datatype QueryUpdate = QueryUpdate(menu: MenuState, shown: QueryMode)

  /** `updateQuery(debounced)`, state part: a debounced click captures the
      node's mode while none is captured, starts the tentative mode from
      the captured one when none is set, and advances the tentative mode. */
  function UpdateQuery(menu: MenuState, state: QueryMode, debounced: bool): (r: QueryUpdate)
    ensures !debounced ==> r == QueryUpdate(menu, state)
    ensures debounced ==>
      && r.menu.currentQueryMode == (if menu.currentQueryMode.Unset? then state else menu.currentQueryMode)
      && r.shown == r.menu.tempQueryMode
      && r.menu.tempQueryMode == NextQueryMode(if menu.tempQueryMode.Unset? then r.menu.currentQueryMode else menu.tempQueryMode)
      && r.menu.currentRootState == menu.currentRootState
      && r.menu.tempRoot == menu.tempRoot
  {
    if !debounced then QueryUpdate(menu, state)
    else
      var current := if menu.currentQueryMode.Unset? then state else menu.currentQueryMode;
      var temp := if menu.tempQueryMode.Unset? then current else menu.tempQueryMode;
      var next := NextQueryMode(temp);
      QueryUpdate(menu.(currentQueryMode := current, tempQueryMode := next), next)
  }

  /** The menu after `k` debounced query clicks on a node whose mode is
      `state`. */
  function QueryClicks(menu: MenuState, state: QueryMode, k: nat): MenuState {
    if k == 0 then menu else UpdateQuery(QueryClicks(menu, state, k - 1), state, true).menu
  }

  /** From an idle menu, `k >= 1` clicks capture the node's mode and leave
      the tentative mode `k` steps along the cycle from it. */
  lemma {:induction false} QueryClicksFromIdle(state: QueryMode, k: nat)
    requires k > 0
    ensures QueryClicks(Idle, state, k).currentQueryMode == state
    ensures QueryClicks(Idle, state, k).tempQueryMode == NextQueryModeN(state, k)
    ensures QueryClicks(Idle, state, k).currentRootState.None?
    ensures QueryClicks(Idle, state, k).tempRoot.None?
  {
    if k > 1 {
      QueryClicksFromIdle(state, k - 1);
    }
  }

  /** What the query handler asks the node collection to do. */
  datatype QueryAction =
    | NoQueryAction
    | QueryByNode(mode: QueryMode)
    | UnqueryByNode(mode: QueryMode)
    | ToggleQueryByNode

  datatype QueryCommit = QueryCommit(menu: MenuState, action: QueryAction)

  /** `queryHanlder(debounced)`: a debounced commit queries with a truthy
      tentative mode, or unqueries with a falsy one, but only when the
      tentative mode differs from the captured one; a direct call toggles.
      Both modes are reset in every case. */
  function QueryHandler(menu: MenuState, debounced: bool): (r: QueryCommit)
    ensures r.menu == menu.(currentQueryMode := Unset, tempQueryMode := Unset)
    ensures !debounced ==> r.action == ToggleQueryByNode
    ensures debounced ==>
      (r.action.NoQueryAction? <==> menu.tempQueryMode == menu.currentQueryMode)
    ensures debounced && r.action.QueryByNode? ==>
      Queried(menu.tempQueryMode) && r.action.mode == menu.tempQueryMode
    ensures debounced && r.action.UnqueryByNode? ==>
      !Queried(menu.tempQueryMode) && r.action.mode == menu.tempQueryMode
    ensures debounced ==> !r.action.ToggleQueryByNode?
  {
    var reset := menu.(currentQueryMode := Unset, tempQueryMode := Unset);
    if !debounced then QueryCommit(reset, ToggleQueryByNode)
    else if menu.tempQueryMode == menu.currentQueryMode then QueryCommit(reset, NoQueryAction)
    else if Queried(menu.tempQueryMode) then QueryCommit(reset, QueryByNode(menu.tempQueryMode))
    else QueryCommit(reset, UnqueryByNode(menu.tempQueryMode))
  }

  /** `k >= 1` debounced clicks followed by the debounced commit: nothing
      happens exactly when the node had a mode (possibly `null`) and `k` is
      a multiple of 4; otherwise the node is queried with, or unqueried at,
      the mode `k` steps along. In particular four clicks on a node whose
      mode is `undefined` end in an unquery with `null`. */
  lemma QueryRoundTrip(state: QueryMode, k: nat)
    requires k > 0
    ensures var commit := QueryHandler(QueryClicks(Idle, state, k), true);
      && commit.menu == Idle
      && (commit.action.NoQueryAction? <==> (!state.Unset? && k % 4 == 0))
      && (!commit.action.NoQueryAction? ==>
            commit.action == (if Queried(NextQueryModeN(state, k)) then QueryByNode(NextQueryModeN(state, k))
                              else UnqueryByNode(NextQueryModeN(state, k))))
  {
    QueryClicksFromIdle(state, k);
    if !state.Unset? {
      QueryModeCycle(state, k);
    }
  }

  /** The query button's label and classes. */
  datatype QueryButton = QueryButton(caption: string, semiActive: bool, active: bool, inactive: bool)

  function ModeName(m: QueryMode): string
    requires Queried(m)
  {
    match m
    case Or => "or"
    case And => "and"
    case Not => "not"
  }

  /** The button shows the displayed mode, or "not queried" when that mode
      is falsy; it is semi-active with a truthy displayed mode and active
      when the node itself is queried. */
  function QueryButtonFor(state: QueryMode, shown: QueryMode): (r: QueryButton)
    ensures r.semiActive <==> Queried(shown)
    ensures r.inactive <==> !Queried(shown)
    ensures r.active <==> Queried(state)
    ensures !Queried(shown) <==> r.caption == "not queried"
    ensures Queried(shown) ==> r.caption == ModeName(shown)
  {
    QueryButton(if Queried(shown) then ModeName(shown) else "not queried",
                Queried(shown), Queried(state), !Queried(shown))
  }

  /** What the button shows while clicking. A direct call shows the node's
      own mode, semi-active exactly when it is active. After `k >= 1`
      debounced clicks from idle it shows the mode `k` steps along the
      cycle, so on a node with a mode (`null` included) a multiple of 4
      clicks shows the node's own mode again. */
  lemma QueryButtonWhileClicking(state: QueryMode, k: nat)
    requires k > 0
    ensures var b := QueryButtonFor(state, UpdateQuery(Idle, state, false).shown);
      b == QueryButtonFor(state, state) && (b.semiActive <==> b.active)
    ensures var b := QueryButtonFor(state, UpdateQuery(QueryClicks(Idle, state, k - 1), state, true).shown);
      && (b.semiActive <==> Queried(NextQueryModeN(state, k)))
      && (b.caption == "not queried" <==> !Queried(NextQueryModeN(state, k)))
      && (!state.Unset? && k % 4 == 0 ==> b == QueryButtonFor(state, state))
  {
    QueryClicksFromIdle(state, k);
    if !state.Unset? {
      QueryModeCycle(state, k);
    }
  }

  // ---------------------------------------------------------------------
  // root button

  /** The menu state after `checkRoot` and whether the checkbox shows as
      checked. */
  datatype RootUpdate = RootUpdate(menu: MenuState, checked: bool)

  /** `checkRoot(debounced)`, state part: a debounced click captures the
      node's root flag once, starts the tentative value from it, and
      negates the tentative value. A direct call shows the node's flag. */
  function CheckRoot(menu: MenuState, state: bool, debounced: bool): (r: RootUpdate)
    ensures !debounced ==> r == RootUpdate(menu, state)
    ensures debounced ==>
      && r.menu.currentRootState == Some(if menu.currentRootState.None? then state else menu.currentRootState.value)
      && r.menu.tempRoot == Some(r.checked)
      && r.checked == !(if menu.tempRoot.Some? then menu.tempRoot.value else r.menu.currentRootState.value)
      && r.menu.currentQueryMode == menu.currentQueryMode
      && r.menu.tempQueryMode == menu.tempQueryMode
  {
    if !debounced then RootUpdate(menu, state)
    else
      var current := if menu.currentRootState.None? then state else menu.currentRootState.value;
      var temp := if menu.tempRoot.Some? then menu.tempRoot.value else current;
      RootUpdate(menu.(currentRootState := Some(current), tempRoot := Some(!temp)), !temp)
  }

  /** The menu after `k` debounced root clicks. */
  function RootClicks(menu: MenuState, state: bool, k: nat): MenuState {
    if k == 0 then menu else CheckRoot(RootClicks(menu, state, k - 1), state, true).menu
  }

  /** From an idle menu, `k >= 1` clicks capture the flag and leave the
      tentative value equal to it after an even number of clicks and to its
      negation after an odd number. */
  lemma {:induction false} RootClicksFromIdle(state: bool, k: nat)
    requires k > 0
    ensures RootClicks(Idle, state, k).currentRootState == Some(state)
    ensures RootClicks(Idle, state, k).tempRoot == Some(if k % 2 == 1 then !state else state)
    ensures RootClicks(Idle, state, k).currentQueryMode.Unset?
    ensures RootClicks(Idle, state, k).tempQueryMode.Unset?
  {
    if k > 1 {
      RootClicksFromIdle(state, k - 1);
    }
  }

  datatype RootCommit = RootCommit(menu: MenuState, toggled: bool)

  /** `rootHandler(debounced)`: toggle the root (and close the menu) on a
      direct call or when the tentative value differs from the captured
      one; reset both values in every case. */
  function RootHandler(menu: MenuState, debounced: bool): (r: RootCommit)
    ensures r.menu == menu.(currentRootState := None, tempRoot := None)
    ensures r.toggled <==> (!debounced || menu.tempRoot != menu.currentRootState)
  {
    RootCommit(menu.(currentRootState := None, tempRoot := None),
               !debounced || menu.tempRoot != menu.currentRootState)
  }

  /** `k >= 1` debounced root clicks and the debounced commit toggle the
      root exactly when `k` is odd, and leave the menu idle. */
  lemma RootRoundTrip(state: bool, k: nat)
    requires k > 0
    ensures RootHandler(RootClicks(Idle, state, k), true).toggled <==> k % 2 == 1
    ensures RootHandler(RootClicks(Idle, state, k), true).menu == Idle
  {
    RootClicksFromIdle(state, k);
  }

  // ---------------------------------------------------------------------
  // button layout

  /** Two button rows when the graph is queryable, three otherwise. */
  function NumButtonRows(querying: bool): nat {
    if querying then 2 else 3
  }

  /** The menu's height: one row height per button row. */
  function MenuHeight(rowHeight: int, querying: bool): int {
    rowHeight * NumButtonRows(querying)
  }

  /** `positionButton`: the vertical offset of a button `distance` rows
      away from the node, counted from the top of the menu (the menu sits
      above the node, so the distance is inverted). */
  function ButtonOffsetY(rowHeight: int, querying: bool, distance: int): (y: int)
    ensures rowHeight >= 0 && 0 <= distance < NumButtonRows(querying) ==>
      0 <= y && y + rowHeight <= MenuHeight(rowHeight, querying)
  {
    rowHeight * (NumButtonRows(querying) - distance - 1)
  }

  /** The button nearest the node sits on the menu's bottom edge, and each
      step away from the node moves a button up by exactly one row, so
      buttons on different rows never overlap. */
  lemma ButtonRowsStack(rowHeight: int, querying: bool, distance: int)
    ensures ButtonOffsetY(rowHeight, querying, 0) + rowHeight == MenuHeight(rowHeight, querying)
    ensures ButtonOffsetY(rowHeight, querying, distance + 1) + rowHeight == ButtonOffsetY(rowHeight, querying, distance)
  {
  }
}

=== FILE: diamond.dfy ===
/** A diamond R -> A -> C, R -> B -> C: neither walk deduplicates, so C is
    reported once per path going down and R once per path going up. */
module Diamond {
  import opened Wrappers
  import opened Graph
  import opened Traversal
  import opened TraversalProps

  const R: NodeId := 0
  const A: NodeId := 1
  const B: NodeId := 2
  const C: NodeId := 3

  function DiamondGraph(): Graph {
    map[
      R := Node([], [A, B], false, R, [], [Link(10, A), Link(11, B)]),
      A := Node([R], [C], false, A, [], [Link(12, C)]),
      B := Node([R], [C], false, B, [], [Link(13, C)]),
      C := Node([A, B], [], false, C, [], [])]
  }

  function DiamondDepth(): map<NodeId, nat> {
    map[R := 0, A := 1, B := 1, C := 2]
  }

  function DiamondHeight(): map<NodeId, nat> {
    map[R := 2, A := 1, B := 1, C := 0]
  }

  lemma DiamondKeys()
    ensures forall n | n in DiamondGraph() :: n == R || n == A || n == B || n == C
  {
    assert DiamondGraph().Keys == {R, A, B, C};
  }

  lemma DiamondWellFormed()
    ensures WellFormed(DiamondGraph())
  {
    var g := DiamondGraph();
    DiamondKeys();
    forall n, j | n in g && 0 <= j < |g[n].parents|
      ensures g[n].parents[j] in g
    {
    }
    forall n, j | n in g && 0 <= j < |g[n].childRefs|
      ensures g[n].childRefs[j] in g
    {
    }
    assert Closed(g);
  }

  /** No node of the diamond is a clone, so each is its own group. */
  lemma DiamondOrig()
    ensures WellFormed(DiamondGraph())
    ensures forall n | n in DiamondGraph() :: Orig(DiamondGraph(), n) == n
  {
    DiamondWellFormed();
  }

  /** Every node of the diamond is a group of its own. */
  lemma DiamondSingle(n: NodeId)
    requires n in DiamondGraph()
    ensures CollectInclClones(DiamondGraph(), n) == [n]
  {
    var g := DiamondGraph();
    DiamondOrig();
    DiamondKeys();
    assert g[n].clones == [];
    var r := CollectInclClones(g, n);
    assert |r| == 1 && r[0] == n;
  }

  lemma DiamondUpRanked()
    ensures UpRanked(DiamondGraph(), DiamondDepth())
  {
    var g, d := DiamondGraph(), DiamondDepth();
    DiamondOrig();
    DiamondKeys();
    forall n, j | n in g && 0 <= j < |g[n].parents|
      ensures d[Orig(g, g[n].parents[j])] < d[Orig(g, n)]
    {
      assert g[n].parents[j] in g;
    }
  }

  lemma DiamondDownRanked()
    ensures DownRanked(DiamondGraph(), DiamondHeight())
  {
    var g, h := DiamondGraph(), DiamondHeight();
    DiamondOrig();
    DiamondKeys();
    forall n, j | n in g && 0 <= j < |g[n].childRefs|
      ensures h[Orig(g, g[n].childRefs[j])] < h[Orig(g, n)]
    {
      assert g[n].childRefs[j] in g;
    }
  }

  lemma FlattenOne<T>(a: seq<T>)
    ensures Flatten([a]) == a
  {
    assert [a][1..] == [];
  }

  lemma FlattenTwo<T>(a: seq<T>, b: seq<T>)
    ensures Flatten([a, b]) == a + b
  {
    assert [a, b][1..] == [b];
    FlattenOne(b);
  }

  /** `up` from a node without clones: its report, then its parents' walks. */
  lemma UpSingle(g: Graph, d: map<NodeId, nat>, n: NodeId, child: Option<NodeId>)
    requires UpRanked(g, d) && n in g
    requires child.Some? ==> child.value in g
    requires CollectInclClones(g, n) == [n]
    ensures Up(g, d, n, child) ==
      (if child.Some? then [UpCall(n, child.value)] else []) + Flatten(UpParentWalks(g, d, n, n))
  {
    var walks := UpMemberWalks(g, d, n, child);
    assert walks == [walks[0]];
    FlattenOne(walks[0]);
  }

  /** `up` with a child from a node without clones or parents. */
  lemma UpNoParent(g: Graph, d: map<NodeId, nat>, n: NodeId, c: NodeId)
    requires UpRanked(g, d) && n in g && c in g
    requires CollectInclClones(g, n) == [n] && g[n].parents == []
    ensures Up(g, d, n, Some(c)) == [UpCall(n, c)]
  {
    UpSingle(g, d, n, Some(c));
    assert UpParentWalks(g, d, n, n) == [];
  }

  /** `up` with a child from a node without clones and with one parent. */
  lemma UpOneParent(g: Graph, d: map<NodeId, nat>, n: NodeId, c: NodeId, p: NodeId)
    requires UpRanked(g, d) && n in g && c in g
    requires CollectInclClones(g, n) == [n] && g[n].parents == [p]
    ensures p in g
    ensures Up(g, d, n, Some(c)) == [UpCall(n, c)] + Up(g, d, p, Some(n))
  {
    UpSingle(g, d, n, Some(c));
    assert g[n].parents[0] == p;
    var walks := UpParentWalks(g, d, n, n);
    assert walks == [Up(g, d, p, Some(n))];
    FlattenOne(walks[0]);
  }

  /** `up` without a child from a node without clones and with two parents:
      the last parent's walk comes first. */
  lemma UpTwoParents(g: Graph, d: map<NodeId, nat>, n: NodeId, p: NodeId, q: NodeId)
    requires UpRanked(g, d) && n in g
    requires CollectInclClones(g, n) == [n] && g[n].parents == [p, q]
    ensures p in g && q in g
    ensures Up(g, d, n, None) == Up(g, d, q, Some(n)) + Up(g, d, p, Some(n))
  {
    UpSingle(g, d, n, None);
    var walks := UpParentWalks(g, d, n, n);
    UpParentWalkAt(g, d, n, n, 0);
    UpParentWalkAt(g, d, n, n, 1);
    assert walks == [Up(g, d, q, Some(n)), Up(g, d, p, Some(n))];
    FlattenTwo(Up(g, d, q, Some(n)), Up(g, d, p, Some(n)));
  }

  /** `down` from a node without clones: the node, then its children's walks. */
  lemma DownSingle(g: Graph, h: map<NodeId, nat>, n: NodeId)
    requires DownRanked(g, h) && n in g
    requires CollectInclClones(g, n) == [n]
    ensures Down(g, h, n) == [n] + Flatten(DownChildWalks(g, h, n, n))
  {
    var walks := DownMemberWalks(g, h, n);
    assert walks == [walks[0]];
    FlattenOne(walks[0]);
  }

  /** `down` from a node without clones or children. */
  lemma DownNoChild(g: Graph, h: map<NodeId, nat>, n: NodeId)
    requires DownRanked(g, h) && n in g
    requires CollectInclClones(g, n) == [n] && g[n].childRefs == []
    ensures Down(g, h, n) == [n]
  {
    DownSingle(g, h, n);
    assert DownChildWalks(g, h, n, n) == [];
  }

  /** `down` from a node without clones and with one child. */
  lemma DownOneChild(g: Graph, h: map<NodeId, nat>, n: NodeId, c: NodeId)
    requires DownRanked(g, h) && n in g
    requires CollectInclClones(g, n) == [n] && g[n].childRefs == [c]
    ensures c in g
    ensures Down(g, h, n) == [n] + Down(g, h, c)
  {
    DownSingle(g, h, n);
    assert g[n].childRefs[0] == c;
    var walks := DownChildWalks(g, h, n, n);
    assert walks == [Down(g, h, c)];
    FlattenOne(walks[0]);
  }

  /** `down` from a node without clones and with two children: the last
      child's walk comes first. */
  lemma DownTwoChildren(g: Graph, h: map<NodeId, nat>, n: NodeId, c: NodeId, e: NodeId)
    requires DownRanked(g, h) && n in g
    requires CollectInclClones(g, n) == [n] && g[n].childRefs == [c, e]
    ensures c in g && e in g
    ensures Down(g, h, n) == [n] + Down(g, h, e) + Down(g, h, c)
  {
    DownSingle(g, h, n);
    var walks := DownChildWalks(g, h, n, n);
    DownChildWalkAt(g, h, n, n, 0);
    DownChildWalkAt(g, h, n, n, 1);
    assert walks == [Down(g, h, e), Down(g, h, c)];
    FlattenTwo(Down(g, h, e), Down(g, h, c));
    assert [n] + Down(g, h, e) + Down(g, h, c) == [n] + (Down(g, h, e) + Down(g, h, c));
  }

  lemma DownC()
    requires DownRanked(DiamondGraph(), DiamondHeight())
    ensures Down(DiamondGraph(), DiamondHeight(), C) == [C]
  {
    var g, h := DiamondGraph(), DiamondHeight();
    DiamondSingle(C);
    DownNoChild(g, h, C);
  }

  lemma DownMiddle(x: NodeId)
    requires x == A || x == B
    requires DownRanked(DiamondGraph(), DiamondHeight())
    ensures Down(DiamondGraph(), DiamondHeight(), x) == [x, C]
  {
    var g, h := DiamondGraph(), DiamondHeight();
    DiamondSingle(x);
    if x == A {
      assert g[A].childRefs == [C];
    } else {
      assert g[B].childRefs == [C];
    }
    DownOneChild(g, h, x, C);
    DownC();
  }

  lemma DownRoot()
    requires DownRanked(DiamondGraph(), DiamondHeight())
    ensures Down(DiamondGraph(), DiamondHeight(), R) == [R, B, C, A, C]
  {
    var g, h := DiamondGraph(), DiamondHeight();
    DiamondSingle(R);
    DownTwoChildren(g, h, R, A, B);
    DownMiddle(A);
    DownMiddle(B);
  }

  /** `down(R)` reports R, then B's branch, then A's branch: C twice. */
  lemma DiamondDown()
    ensures DownRanked(DiamondGraph(), DiamondHeight())
    ensures Down(DiamondGraph(), DiamondHeight(), R) == [R, B, C, A, C]
    ensures multiset(Down(DiamondGraph(), DiamondHeight(), R))[C] == 2
  {
    DiamondDownRanked();
    DownRoot();
    CountC();
  }

  lemma CountC()
    ensures multiset([R, B, C, A, C])[C] == 2
  {
    assert [R, B, C, A, C] == [R, B] + [C] + [A] + [C];
  }

  lemma UpRoot(c: NodeId)
    requires c == A || c == B
    requires UpRanked(DiamondGraph(), DiamondDepth())
    ensures Up(DiamondGraph(), DiamondDepth(), R, Some(c)) == [UpCall(R, c)]
  {
    var g, d := DiamondGraph(), DiamondDepth();
    DiamondSingle(R);
    UpNoParent(g, d, R, c);
  }

  lemma UpMiddle(x: NodeId)
    requires x == A || x == B
    requires UpRanked(DiamondGraph(), DiamondDepth())
    ensures Up(DiamondGraph(), DiamondDepth(), x, Some(C)) == [UpCall(x, C), UpCall(R, x)]
  {
    var g, d := DiamondGraph(), DiamondDepth();
    DiamondSingle(x);
    if x == A {
      assert g[A].parents == [R];
    } else {
      assert g[B].parents == [R];
    }
    UpOneParent(g, d, x, C, R);
    UpRoot(x);
  }

  /** `up(C)` reports the edges into C from the last parent to the first,
      and an edge out of R once for each of its two children. */
  lemma DiamondUp()
    ensures UpRanked(DiamondGraph(), DiamondDepth())
    ensures Up(DiamondGraph(), DiamondDepth(), C, None) ==
      [UpCall(B, C), UpCall(R, B), UpCall(A, C), UpCall(R, A)]
  {
    var g, d := DiamondGraph(), DiamondDepth();
    DiamondUpRanked();
    DiamondSingle(C);
    UpTwoParents(g, d, C, A, B);
    UpMiddle(A);
    UpMiddle(B);
  }
}

=== FILE: events.dfy ===
/** The `Events` listener stack: per event name, a list of listeners, each
    with a count of how many more times it may be invoked. Callbacks are
    opaque; a trigger is modelled by the callbacks it invokes, in order. */
module Events {

  type CallbackId = nat

  /** A listener's remaining count; `Unlimited` is JavaScript's `Infinity`. */
  datatype Times = Finite(n: int) | Unlimited

  datatype Listener = Listener(callback: CallbackId, times: Times)

  type Stack = map<string, seq<Listener>>

  /** The `callback` argument of `on`: a function or any other value. */
  datatype CallbackArg = Function(id: CallbackId) | NotAFunction

  /** The `times` argument of `on`: a finite number, which the bundled
      `isFinite` accepts and `parseInt` truncates to an integer, or anything
      else, which it rejects: absent, `null`, any string, a non-finite
      number. */
  datatype TimesArg = FiniteNumber(n: int) | NotFinite

  /** `on` returns `false` or the new listener's index. */
  datatype OnResult = Rejected | Index(index: nat)

  datatype OnOutcome = OnOutcome(result: OnResult, stack: Stack)

  /** The count `on` stores for its `times` argument. */
  function ParseTimes(times: TimesArg): Times {
    match times
    case FiniteNumber(n) => Finite(n)
    case NotFinite => Unlimited
  }

  /** `on(event, callback, times)`: append a listener to the event's list,
      creating the list when the event has none. */
  function On(stack: Stack, event: string, callback: CallbackArg, times: TimesArg): (r: OnOutcome)
    ensures callback.NotAFunction? ==> r == OnOutcome(Rejected, stack)
    ensures callback.Function? ==>
      && event in r.stack
      && |r.stack[event]| > 0
      && r.result == Index(|r.stack[event]| - 1)
      && r.stack[event][|r.stack[event]| - 1] == Listener(callback.id, ParseTimes(times))
      && r.stack[event][..|r.stack[event]| - 1] == (if event in stack then stack[event] else [])
    ensures forall e | e != event :: (e in r.stack <==> e in stack) && (e in stack ==> r.stack[e] == stack[e])
  {
    match callback
    case NotAFunction => OnOutcome(Rejected, stack)
    case Function(id) =>
      var listener := Listener(id, ParseTimes(times));
      if event in stack then
        OnOutcome(Index(|stack[event] + [listener]| - 1), stack[event := stack[event] + [listener]])
      else
        OnOutcome(Index(0), stack[event := [listener]])
  }

  /** `Array.prototype.splice(index, 1)`: a negative index counts from the
      end, and an index past the end removes nothing. */
  function Splice<T>(xs: seq<T>, index: int): (r: seq<T>)
    ensures 0 <= index < |xs| ==>
      (&& |r| == |xs| - 1
       && (forall i | 0 <= i < index :: r[i] == xs[i])
       && (forall i | index <= i < |r| :: r[i] == xs[i + 1]))
    ensures -|xs| <= index < 0 ==> r == xs[..|xs| + index] + xs[|xs| + index + 1..]
    ensures index >= |xs| ==> r == xs
    ensures index < -|xs| && |xs| > 0 ==> r == xs[1..]
  {
    var start := if index < 0 then (if |xs| + index > 0 then |xs| + index else 0)
                 else (if index < |xs| then index else |xs|);
    if start < |xs| then xs[..start] + xs[start + 1..] else xs
  }

  datatype OffOutcome = OffOutcome(removed: bool, stack: Stack)

  /** `off(event, index)`: splice the listener out; an event without a list
      makes `splice` throw, which `off` reports as `false`. */
  function Off(stack: Stack, event: string, index: int): (r: OffOutcome)
    ensures event !in stack ==> r == OffOutcome(false, stack)
    ensures event in stack ==> r.removed && r.stack == stack[event := Splice(stack[event], index)]
  {
    if event in stack then OffOutcome(true, stack[event := Splice(stack[event], index)])
    else OffOutcome(false, stack)
  }

  /** Whether the post-decrement `times--` reads a truthy value. */
  predicate Truthy(t: Times) {
    t.Unlimited? || (t.Finite? && t.n != 0)
  }

  /** `times - 1`: an infinite count is unchanged. */
  function Decrement(t: Times): Times {
    if t.Finite? then Finite(t.n - 1) else t
  }

  /** Reference definition of the listeners a trigger keeps: each listener
      with a truthy count is kept, in place, with its count decremented;
      each listener with count 0 is dropped. */
  function Kept(ls: seq<Listener>): seq<Listener> {
    if |ls| == 0 then []
    else (if Truthy(ls[0].times) then [Listener(ls[0].callback, Decrement(ls[0].times))] else []) + Kept(ls[1..])
  }

  /** Reference definition of the callbacks a trigger invokes: those of the
      listeners with a truthy count, from the last listener to the first. */
  function Fired(ls: seq<Listener>): seq<CallbackId> {
    if |ls| == 0 then []
    else Fired(ls[1..]) + (if Truthy(ls[0].times) then [ls[0].callback] else [])
  }

  /** The list `trigger` holds before it visits index `i`: the listeners
      below `i` untouched, those from `i` on already processed. */
  function PartlyTriggered(ls: seq<Listener>, i: nat): seq<Listener>
    requires i <= |ls|
  {
    ls[..i] + Kept(ls[i..])
  }

  /** Visiting index `i` of a partly triggered list: the listener there is
      still the original one; a truthy count is decremented in place and a
      count of 0 is spliced out, which extends the processed part by one. */
  lemma TriggerStep(ls: seq<Listener>, i: nat)
    requires i < |ls|
    ensures var cur := PartlyTriggered(ls, i + 1);
      && i < |cur| && cur[i] == ls[i]
      && (Truthy(ls[i].times) ==>
            cur[i := Listener(ls[i].callback, Decrement(ls[i].times))] == PartlyTriggered(ls, i))
      && (!Truthy(ls[i].times) ==> Splice(cur, i) == PartlyTriggered(ls, i))
    ensures Fired(ls[i..]) == Fired(ls[i + 1..]) + (if Truthy(ls[i].times) then [ls[i].callback] else [])
  {
    assert ls[i..][1..] == ls[i + 1..];
    assert ls[..i + 1] == ls[..i] + [ls[i]];
  }

  /** `trigger(event, data)`: walk the event's listeners from last to first;
      a listener whose count is truthy is invoked and its count decremented,
      one whose count is 0 is spliced out with `off`. Returns whether the
      event had a list. */
  method Trigger(stack: Stack, event: string) returns (found: bool, result: Stack, invoked: seq<CallbackId>)
    ensures event !in stack ==> !found && result == stack && invoked == []
    ensures event in stack ==> found && result == stack[event := Kept(stack[event])]
    ensures event in stack ==> invoked == Fired(stack[event])
  {
    if event !in stack {
      return false, stack, [];
    }
    var original := stack[event];
    result := stack;
    invoked := [];
    var i := |original|;
    assert PartlyTriggered(original, i) == original by {
      assert original[i..] == [];
    }
    assert stack[event := original] == stack;
    while i > 0
      invariant 0 <= i <= |original|
      invariant result == stack[event := PartlyTriggered(original, i)]
      invariant invoked == Fired(original[i..])
    {
      i := i - 1;
      var ls := result[event];
      TriggerStep(original, i);
      if Truthy(ls[i].times) {
        invoked := invoked + [ls[i].callback];
        result := result[event := ls[i := Listener(ls[i].callback, Decrement(ls[i].times))]];
      } else {
        result := Off(result, event, i).stack;
      }
    }
    assert PartlyTriggered(original, 0) == Kept(original) by {
      assert original[0..] == original;
    }
    found := true;
  }

  /** The outcome of `k` consecutive triggers of one event list, as the
      reference definitions describe it: the list left and every callback
      invoked, in order. */
  function TriggerRepeatedly(ls: seq<Listener>, k: nat): (seq<Listener>, seq<CallbackId>) {
    if k == 0 then (ls, [])
    else
      var (left, fired) := TriggerRepeatedly(ls, k - 1);
      (Kept(left), fired + Fired(left))
  }

  /** A listener registered with `times = n >= 0` is invoked on exactly the
      first n triggers and is gone after trigger n + 1. */
  lemma {:induction false} ListenerLifetime(cb: CallbackId, n: nat, k: nat)
    ensures TriggerRepeatedly([Listener(cb, Finite(n))], k).0 ==
      (if k <= n then [Listener(cb, Finite(n - k))] else [])
    ensures TriggerRepeatedly([Listener(cb, Finite(n))], k).1 ==
      seq(if k <= n then k else n, _ => cb)
  {
    if k > 0 {
      ListenerLifetime(cb, n, k - 1);
      var left := TriggerRepeatedly([Listener(cb, Finite(n))], k - 1).0;
      if k - 1 < n {
        assert left[1..] == [];
        assert Kept(left) == [Listener(cb, Finite(n - k))];
        assert Fired(left) == [cb];
      } else if k - 1 == n {
        assert left[1..] == [];
        assert Kept(left) == [];
        assert Fired(left) == [];
      } else {
        assert left == [];
      }
    }
  }

  /** A listener with an infinite count is invoked on every trigger and
      never removed. */
  lemma {:induction false} UnlimitedLifetime(cb: CallbackId, k: nat)
    ensures TriggerRepeatedly([Listener(cb, Unlimited)], k) == ([Listener(cb, Unlimited)], seq(k, _ => cb))
  {
    if k > 0 {
      UnlimitedLifetime(cb, k - 1);
      var left := TriggerRepeatedly([Listener(cb, Unlimited)], k - 1).0;
      assert left[1..] == [];
      assert Kept(left) == [Listener(cb, Unlimited)];
      assert Fired(left) == [cb];
      assert seq(k - 1, _ => cb) + [cb] == seq(k, _ => cb);
    } else {
      assert seq(0, _ => cb) == [];
    }
  }

  /** A listener registered without a finite number as `times` (absent,
      `null`, a string, `Infinity`) is stored with an infinite count, so k
      triggers invoke it k times and keep it. */
  lemma NotFiniteTimesNeverExpire(stack: Stack, event: string, cb: CallbackId, k: nat)
    ensures var s := On(stack, event, Function(cb), NotFinite).stack;
      && event in s && |s[event]| > 0
      && s[event][|s[event]| - 1] == Listener(cb, Unlimited)
      && TriggerRepeatedly([s[event][|s[event]| - 1]], k) == ([Listener(cb, Unlimited)], seq(k, _ => cb))
  {
    UnlimitedLifetime(cb, k);
  }

  /** The index `on` returns is the handle `off` takes to remove the
      listener again: on an event with a list, `off` right after `on`
      restores the stack; on an event without one, the event is left
      with an empty list. */
  lemma OnOffRoundTrip(stack: Stack, event: string, cb: CallbackId, times: TimesArg)
    ensures var r := On(stack, event, Function(cb), times);
      && r.result.Index?
      && Off(r.stack, event, r.result.index).removed
      && (event in stack ==> Off(r.stack, event, r.result.index).stack == stack)
      && (event !in stack ==> Off(r.stack, event, r.result.index).stack == stack[event := []])
  {
    var r := On(stack, event, Function(cb), times);
    var before := if event in stack then stack[event] else [];
    var ls := r.stack[event];
    assert ls == before + [Listener(cb, ParseTimes(times))];
    assert Splice(ls, |before|) == before by {
      assert ls[..|before|] == before;
      assert ls[|before| + 1..] == [];
    }
    if event in stack {
      assert r.stack[event := before] == stack;
    } else {
      assert r.stack[event := []] == stack[event := []];
    }
  }

  /** A listener registered with a negative `times` is never exhausted: its
      count stays truthy on every trigger. */
  lemma {:induction false} NegativeTimesNeverExpire(cb: CallbackId, n: int, k: nat)
    requires n < 0
    ensures TriggerRepeatedly([Listener(cb, Finite(n))], k).0 == [Listener(cb, Finite(n - k))]
    ensures |TriggerRepeatedly([Listener(cb, Finite(n))], k).1| == k
  {
    if k > 0 {
      NegativeTimesNeverExpire(cb, n, k - 1);
      var left := TriggerRepeatedly([Listener(cb, Finite(n))], k - 1).0;
      assert left[1..] == [];
      assert Kept(left) == [Listener(cb, Finite(n - k))];
      assert Fired(left) == [cb];
    }
  }
}

=== FILE: graph.dfy ===
/** The node graph the list-graph layout builds: nodes addressed by id, with
    ordered parent and child references and clone bookkeeping. A clone is a
    rendering duplicate of an original node in another column. */
module Graph {
  type NodeId = int

  /** An outgoing link of a node; only its id and the id of its target node
      matter to the interaction logic. */
  datatype Link = Link(id: nat, target: NodeId)

  datatype Node = Node(
    parents: seq<NodeId>,
    childRefs: seq<NodeId>,
    clone: bool,
    originalNode: NodeId,   // meaningful only when `clone` holds
    clones: seq<NodeId>,    // meaningful only on an original node
    links: seq<Link>)

  type Graph = map<NodeId, Node>

  /** Every reference held by a node points to a node of the graph. */
  predicate Closed(g: Graph) {
    && (forall n, j | n in g && 0 <= j < |g[n].parents| :: g[n].parents[j] in g)
    && (forall n, j | n in g && 0 <= j < |g[n].childRefs| :: g[n].childRefs[j] in g)
    && (forall n, j | n in g && 0 <= j < |g[n].clones| :: g[n].clones[j] in g)
    && (forall n | n in g && g[n].clone :: g[n].originalNode in g)
    && (forall n, k | n in g && 0 <= k < |g[n].links| :: g[n].links[k].target in g)
  }

  /** Clone bookkeeping is symmetric: a clone's original is not itself a
      clone and lists the clone, and every node an original lists is a clone
      pointing back to it. */
  predicate CloneConsistent(g: Graph)
    requires Closed(g)
  {
    && (forall n | n in g && g[n].clone ::
          !g[g[n].originalNode].clone && n in g[g[n].originalNode].clones)
    && (forall n, j | n in g && !g[n].clone && 0 <= j < |g[n].clones| ::
          g[g[n].clones[j]].clone && g[g[n].clones[j]].originalNode == n)
  }

  predicate WellFormed(g: Graph) {
    Closed(g) && CloneConsistent(g)
  }

  /** The original node a node stands for: itself, or its `originalNode`. */
  function Orig(g: Graph, n: NodeId): (o: NodeId)
    requires n in g
    ensures WellFormed(g) ==> o in g && !g[o].clone
    ensures !g[n].clone ==> o == n
  {
    if g[n].clone then g[n].originalNode else n
  }

  /** Two nodes belong to the same clone group when they stand for the same
      original. */
  predicate SameGroup(g: Graph, x: NodeId, y: NodeId)
    requires WellFormed(g) && x in g && y in g
  {
    Orig(g, x) == Orig(g, y)
  }

  /** `collectInclClones`: the original node followed by all of its clones.
      The source dereferences `originalNode` of a clone, so a clone must
      have one. */
  function CollectInclClones(g: Graph, n: NodeId): (r: seq<NodeId>)
    requires n in g
    requires g[n].clone ==> g[n].originalNode in g
    ensures |r| >= 1 && r[0] == Orig(g, n)
    ensures |r| == 1 + |g[Orig(g, n)].clones|
    ensures forall i | 1 <= i < |r| :: r[i] == g[Orig(g, n)].clones[i - 1]
  {
    var original := if g[n].clone then g[n].originalNode else n;
    var clones := [original];
    if |g[original].clones| > 0 then clones + g[original].clones else clones
  }

  /** Every node the collection returns is in the graph and stands for the
      same original as the start node. */
  lemma CollectedAreGroup(g: Graph, n: NodeId)
    requires WellFormed(g) && n in g
    ensures forall i | 0 <= i < |CollectInclClones(g, n)| ::
      CollectInclClones(g, n)[i] in g && Orig(g, CollectInclClones(g, n)[i]) == Orig(g, n)
  {
    var r := CollectInclClones(g, n);
    var o := Orig(g, n);
    forall i | 0 <= i < |r|
      ensures r[i] in g && Orig(g, r[i]) == o
    {
      if i > 0 {
        assert r[i] == g[o].clones[i - 1];
      }
    }
  }

  /** Conversely every member of a node's clone group is collected, the node
      itself included. */
  lemma GroupIsCollected(g: Graph, n: NodeId, x: NodeId)
    requires WellFormed(g) && n in g && x in g
    requires Orig(g, x) == Orig(g, n)
    ensures x in CollectInclClones(g, n)
  {
    var r := CollectInclClones(g, n);
    var o := Orig(g, n);
    if g[x].clone {
      var j :| 0 <= j < |g[o].clones| && g[o].clones[j] == x;
      assert r[j + 1] == x;
    } else {
      assert r[0] == x;
    }
  }

  /** A clone and its original yield the same collection. */
  lemma CloneAndOriginalCollectEqual(g: Graph, k: NodeId)
    requires WellFormed(g) && k in g && g[k].clone
    ensures CollectInclClones(g, k) == CollectInclClones(g, g[k].originalNode)
  {
  }

  /** Two members of one clone group yield the same collection. */
  lemma CollectsAlike(g: Graph, a: NodeId, b: NodeId)
    requires WellFormed(g) && a in g && b in g && Orig(g, a) == Orig(g, b)
    ensures CollectInclClones(g, a) == CollectInclClones(g, b)
  {
  }

  datatype FakeObj = FakeObj(id: nat)

  /** `arrayToFakeObjs`: wraps every id into an object, walking the input
      from its last element to its first. */
  method ArrayToFakeObjs(arrayIds: seq<nat>) returns (fakeObjs: seq<FakeObj>)
    ensures |fakeObjs| == |arrayIds|
    ensures forall i | 0 <= i < |fakeObjs| :: fakeObjs[i].id == arrayIds[|arrayIds| - 1 - i]
  {
    fakeObjs := [];
    var i := |arrayIds|;
    while i > 0
      invariant 0 <= i <= |arrayIds|
      invariant |fakeObjs| == |arrayIds| - i
      invariant forall k | 0 <= k < |fakeObjs| :: fakeObjs[k].id == arrayIds[|arrayIds| - 1 - k]
    {
      i := i - 1;
      fakeObjs := fakeObjs + [FakeObj(arrayIds[i])];
    }
  }

  /** Reading the ids back out of the fake objects and wrapping them again
      restores the original order. */
  method ArrayToFakeObjsTwice(arrayIds: seq<nat>) returns (again: seq<FakeObj>)
    ensures |again| == |arrayIds|
    ensures forall i | 0 <= i < |again| :: again[i].id == arrayIds[i]
  {
    var once := ArrayToFakeObjs(arrayIds);
    var ids := seq(|once|, i requires 0 <= i < |once| => once[i].id);
    again := ArrayToFakeObjs(ids);
  }
}

=== FILE: highlight.dfy ===
/** Interaction state driven by the walks: the `hovering` marks (0 none,
    1 directly, 2 indirectly), the per-class list of link ids to emphasise
    (`currentLinks`), and the single locked node. */
module Highlight {
  import opened Wrappers
  import opened Graph
  import opened Traversal
  import opened TraversalProps

  /** `hovering` of every node that has one. */
  type Hovering = map<NodeId, int>

  /** `currentLinks`: link ids recorded per class name. */
  type LinkIndex = map<string, seq<nat>>

  const NONE: int := 0
  const DIRECTLY: int := 1
  const INDIRECTLY: int := 2

  /** An absent or empty class name falls back to `'hovering'`. */
  function ClassNameOrDefault(className: Option<string>): (c: string)
    ensures c != ""
    ensures className.None? || className.value == "" ==> c == "hovering"
    ensures className.Some? && className.value != "" ==> c == className.value
  {
    if className.None? || className.value == "" then "hovering" else className.value
  }

  // ---------------------------------------------------------------------
  // Callback effects

  /** Ids the up-callback records for a parent: those of its links, from the
      last to the first, whose target shares its `id` with the child walked
      from, that is, lies in the child's clone group. */
  function UpLinkIds(g: Graph, links: seq<Link>, child: NodeId): (r: seq<nat>)
    requires child in g && forall k | 0 <= k < |links| :: links[k].target in g
    ensures forall id :: id in r <==>
      exists k | 0 <= k < |links| :: links[k].id == id && Orig(g, links[k].target) == Orig(g, child)
  {
    if |links| == 0 then []
    else
      var last := links[|links| - 1];
      var rest := UpLinkIds(g, links[..|links| - 1], child);
      assert forall k | 0 <= k < |links| - 1 :: links[..|links| - 1][k] == links[k];
      (if Orig(g, last.target) == Orig(g, child) then [last.id] else []) + rest
  }

  /** Ids the down-callback records: those of all links, last to first. */
  function DownLinkIds(links: seq<Link>): (r: seq<nat>)
    ensures |r| == |links|
    ensures forall i | 0 <= i < |r| :: r[i] == links[|links| - 1 - i].id
  {
    if |links| == 0 then []
    else [links[|links| - 1].id] + DownLinkIds(links[..|links| - 1])
  }

  /** A link of a node targets the clone group of `child`. */
  ghost predicate TargetsGroup(g: Graph, x: NodeId, k: int, child: NodeId) {
    && x in g && 0 <= k < |g[x].links| && child in g
    && g[x].links[k].target in g
    && Orig(g, g[x].links[k].target) == Orig(g, child)
  }

  /** The invocation records link `id` of its node: any link for the
      down-callback, a link targeting the child's clone group for the
      up-callback. */
  ghost predicate Records(g: Graph, inv: Invocation, id: nat) {
    && inv.node in g
    && exists k | 0 <= k < |g[inv.node].links| ::
      && g[inv.node].links[k].id == id
      && (inv.callback == CallbackDown || (inv.child.Some? && TargetsGroup(g, inv.node, k, inv.child.value)))
  }

  predicate NodesIn(g: Graph, invs: seq<Invocation>) {
    forall i | 0 <= i < |invs| :: invs[i].node in g
  }

  /** Nodes the invocations are made on. */
  function Nodes(invs: seq<Invocation>): set<NodeId> {
    set i | 0 <= i < |invs| :: invs[i].node
  }

  /** Every callback invocation sets the node's `hovering` to `level`. */
  function MarkWalk(hov: Hovering, invs: seq<Invocation>, level: int): (h: Hovering)
    ensures forall x :: x in h <==> x in hov || x in Nodes(invs)
    ensures forall x | x in h :: h[x] == if x in Nodes(invs) then level else hov[x]
  {
    if |invs| == 0 then hov
    else
      var front := invs[..|invs| - 1];
      assert Nodes(invs) == Nodes(front) + {invs[|invs| - 1].node} by {
        assert forall i | 0 <= i < |front| :: front[i] == invs[i];
      }
      MarkWalk(hov, front, level)[invs[|invs| - 1].node := level]
  }

  /** Link ids one invocation of the highlighting callbacks records: with
      the down-callback every link, with the up-callback those targeting the
      clone group of the child walked from. */
  function InvocationLinkIds(g: Graph, inv: Invocation): (r: seq<nat>)
    requires WellFormed(g) && inv.node in g
    ensures forall id :: id in r <==> Records(g, inv, id)
  {
    var links := g[inv.node].links;
    var ids := match inv.callback
      case CallbackDown => DownLinkIds(links)
      case CallbackUp =>
        if inv.child.Some? && inv.child.value in g then UpLinkIds(g, links, inv.child.value) else [];
    assert forall id :: id in ids <==> Records(g, inv, id) by {
      forall id | inv.callback == CallbackDown && Records(g, inv, id)
        ensures id in ids
      {
        var k :| 0 <= k < |links| && links[k].id == id;
        assert ids[|links| - 1 - k] == id;
      }
    }
    ids
  }

  /** Some invocation of `invs` records link `id`. */
  ghost predicate SomeRecords(g: Graph, invs: seq<Invocation>, id: nat) {
    exists i | 0 <= i < |invs| :: Records(g, invs[i], id)
  }

  lemma SomeRecordsSnoc(g: Graph, invs: seq<Invocation>, id: nat)
    requires |invs| > 0
    ensures SomeRecords(g, invs, id) <==>
      SomeRecords(g, invs[..|invs| - 1], id) || Records(g, invs[|invs| - 1], id)
  {
    var front := invs[..|invs| - 1];
    if SomeRecords(g, invs, id) {
      var i :| 0 <= i < |invs| && Records(g, invs[i], id);
      if i < |front| {
        assert front[i] == invs[i];
      }
    }
    if SomeRecords(g, front, id) {
      var i :| 0 <= i < |front| && Records(g, front[i], id);
      assert invs[i] == front[i];
    }
  }

  /** Link ids recorded by the highlighting callbacks, in invocation order. */
  function LinkWalk(g: Graph, invs: seq<Invocation>): (r: seq<nat>)
    requires WellFormed(g) && NodesIn(g, invs)
    ensures forall id :: id in r <==> SomeRecords(g, invs, id)
  {
    if |invs| == 0 then []
    else
      var front := invs[..|invs| - 1];
      assert NodesIn(g, front) by {
        assert forall i | 0 <= i < |front| :: front[i] == invs[i];
      }
      var r := LinkWalk(g, front) + InvocationLinkIds(g, invs[|invs| - 1]);
      assert forall id :: id in r <==> SomeRecords(g, invs, id) by {
        forall id
          ensures id in r <==> SomeRecords(g, invs, id)
        {
          SomeRecordsSnoc(g, invs, id);
        }
      }
      r
  }

  /** One more invocation appends what it records. */
  lemma LinkWalkSnoc(g: Graph, invs: seq<Invocation>, x: Invocation)
    requires WellFormed(g) && NodesIn(g, invs) && x.node in g
    ensures NodesIn(g, invs + [x])
    ensures LinkWalk(g, invs + [x]) == LinkWalk(g, invs) + InvocationLinkIds(g, x)
  {
    assert (invs + [x])[..|invs|] == invs;
  }

  // ---------------------------------------------------------------------
  // highlightNodes / dehighlightNodes

  datatype HoverState = HoverState(hovering: Hovering, currentLinks: LinkIndex)

  /** The nodes the hover walks touch: the start node, its original when it
      is a clone, and every node of `upAndDown` from it. */
  ghost predicate Touched(g: Graph, depth: map<NodeId, nat>, height: map<NodeId, nat>, n: NodeId, x: NodeId)
    requires UpRanked(g, depth) && DownRanked(g, height) && n in g
  {
    || x == n
    || (g[n].clone && x == g[n].originalNode)
    || x in Nodes(UpAndDown(g, depth, height, n, true))
  }

  lemma UpAndDownNodesIn(g: Graph, depth: map<NodeId, nat>, height: map<NodeId, nat>, n: NodeId, hasCallbackDown: bool)
    requires UpRanked(g, depth) && DownRanked(g, height) && n in g
    ensures NodesIn(g, UpAndDown(g, depth, height, n, hasCallbackDown))
  {
    var ups := Up(g, depth, n, None);
    var downs := Down(g, height, n);
    var r := UpAndDown(g, depth, height, n, hasCallbackDown);
    UpSound(g, depth, n, None);
    DownSound(g, height, n);
    forall i | 0 <= i < |r|
      ensures r[i].node in g
    {
      if i < |ups| {
        assert ups[i] in ups;
      } else {
        assert downs[i - |ups|] in downs;
      }
    }
  }

  /** Both callback assignments of `upAndDown` visit the same nodes. */
  lemma UpAndDownSameNodes(g: Graph, depth: map<NodeId, nat>, height: map<NodeId, nat>, n: NodeId)
    requires UpRanked(g, depth) && DownRanked(g, height) && n in g
    ensures Nodes(UpAndDown(g, depth, height, n, true)) == Nodes(UpAndDown(g, depth, height, n, false))
  {
    var a := UpAndDown(g, depth, height, n, true);
    var b := UpAndDown(g, depth, height, n, false);
    assert |a| == |b|;
    assert forall i | 0 <= i < |a| :: a[i].node == b[i].node;
    assert Nodes(a) == Nodes(b) by {
      forall x | x in Nodes(a) ensures x in Nodes(b) {
        var i :| 0 <= i < |a| && a[i].node == x;
        assert b[i].node == x;
      }
      forall x | x in Nodes(b) ensures x in Nodes(a) {
        var i :| 0 <= i < |b| && b[i].node == x;
        assert a[i].node == x;
      }
    }
  }

  /** Every member of a node's clone group is touched by the hover walks
      from it: `down` reports the whole group. */
  lemma GroupTouched(g: Graph, depth: map<NodeId, nat>, height: map<NodeId, nat>, n: NodeId, x: NodeId)
    requires UpRanked(g, depth) && DownRanked(g, height) && n in g && x in g
    requires Orig(g, x) == Orig(g, n)
    ensures Touched(g, depth, height, n, x)
  {
    var ups := Up(g, depth, n, None);
    var downs := Down(g, height, n);
    var invs := UpAndDown(g, depth, height, n, true);
    GroupIsCollected(g, n, x);
    DownReportsGroup(g, height, n);
    var k :| 0 <= k < |downs| && downs[k] == x;
    assert invs[|ups| + k].node == x;
  }

  /** The hover walks from two members of one clone group touch the same
      nodes. */
  lemma GroupTouchesAlike(g: Graph, depth: map<NodeId, nat>, height: map<NodeId, nat>, a: NodeId, b: NodeId, x: NodeId)
    requires UpRanked(g, depth) && DownRanked(g, height) && a in g && b in g
    requires Orig(g, a) == Orig(g, b)
    ensures Touched(g, depth, height, a, x) <==> Touched(g, depth, height, b, x)
  {
    UpGroupAgree(g, depth, a, b, None);
    DownGroupAgree(g, height, a, b);
    assert UpAndDown(g, depth, height, a, true) == UpAndDown(g, depth, height, b, true);
    if x == a || x == b {
      GroupTouched(g, depth, height, a, x);
      GroupTouched(g, depth, height, b, x);
    } else if (g[a].clone && x == g[a].originalNode) || (g[b].clone && x == g[b].originalNode) {
      GroupTouched(g, depth, height, a, x);
      GroupTouched(g, depth, height, b, x);
    }
  }

  /** `highlightNodes(node, className)`: the class's link list is reset and
      refilled by the walk; every node the walk reaches gets `hovering = 2`;
      then the original (for a clone) and the node itself get 1. */
  function HighlightNodes(g: Graph, depth: map<NodeId, nat>, height: map<NodeId, nat>,
                          s: HoverState, n: NodeId, className: Option<string>): (r: HoverState)
    requires UpRanked(g, depth) && DownRanked(g, height) && n in g
    ensures n in r.hovering && r.hovering[n] == DIRECTLY
    ensures g[n].clone ==> g[n].originalNode in r.hovering && r.hovering[g[n].originalNode] == DIRECTLY
    ensures forall x | Touched(g, depth, height, n, x) && x != n && !(g[n].clone && x == g[n].originalNode) ::
      x in r.hovering && r.hovering[x] == INDIRECTLY
    ensures forall x | !Touched(g, depth, height, n, x) ::
      (x in r.hovering <==> x in s.hovering) && (x in s.hovering ==> r.hovering[x] == s.hovering[x])
    ensures r.currentLinks.Keys == s.currentLinks.Keys + {ClassNameOrDefault(className)}
    ensures forall c | c in s.currentLinks && c != ClassNameOrDefault(className) ::
      r.currentLinks[c] == s.currentLinks[c]
    ensures forall id :: id in r.currentLinks[ClassNameOrDefault(className)] <==>
      exists i | 0 <= i < |UpAndDown(g, depth, height, n, true)| ::
        Records(g, UpAndDown(g, depth, height, n, true)[i], id)
  {
    var cls := ClassNameOrDefault(className);
    var invs := UpAndDown(g, depth, height, n, true);
    UpAndDownNodesIn(g, depth, height, n, true);
    var marked := MarkWalk(s.hovering, invs, INDIRECTLY);
    var withOriginal := if g[n].clone then marked[g[n].originalNode := DIRECTLY] else marked;
    HoverState(withOriginal[n := DIRECTLY], s.currentLinks[cls := LinkWalk(g, invs)])
  }

  /** `dehighlightNodes(node, className)`: the node, every node of
      `upAndDown` from it (one callback for both directions) and its
      original get `hovering = 0`. The class's link list is only read, to
      un-emphasise those links, and stays as it is. */
  function DehighlightNodes(g: Graph, depth: map<NodeId, nat>, height: map<NodeId, nat>,
                            s: HoverState, n: NodeId): (r: HoverState)
    requires UpRanked(g, depth) && DownRanked(g, height) && n in g
    ensures forall x | Touched(g, depth, height, n, x) :: x in r.hovering && r.hovering[x] == NONE
    ensures forall x | !Touched(g, depth, height, n, x) ::
      (x in r.hovering <==> x in s.hovering) && (x in s.hovering ==> r.hovering[x] == s.hovering[x])
    ensures r.currentLinks == s.currentLinks
  {
    var invs := UpAndDown(g, depth, height, n, false);
    UpAndDownSameNodes(g, depth, height, n);
    var cleared := MarkWalk(s.hovering[n := NONE], invs, NONE);
    var withOriginal := if g[n].clone then cleared[g[n].originalNode := NONE] else cleared;
    HoverState(withOriginal, s.currentLinks)
  }

  /** Hover round trip: leaving right after entering sets every touched
      node back to 0 and leaves every other node as it was. */
  lemma HoverRoundTrip(g: Graph, depth: map<NodeId, nat>, height: map<NodeId, nat>,
                       s: HoverState, n: NodeId, className: Option<string>)
    requires UpRanked(g, depth) && DownRanked(g, height) && n in g
    ensures var r := DehighlightNodes(g, depth, height, HighlightNodes(g, depth, height, s, n, className), n);
      && (forall x | Touched(g, depth, height, n, x) :: x in r.hovering && r.hovering[x] == NONE)
      && (forall x | !Touched(g, depth, height, n, x) ::
            (x in r.hovering <==> x in s.hovering) && (x in s.hovering ==> r.hovering[x] == s.hovering[x]))
  {
  }

  /** A link of a node the `up` walk reports, targeting a member of the
      clone group of the child it was reported with. */
  ghost predicate UpRecords(g: Graph, ups: seq<UpCall>, id: nat) {
    exists i, k | 0 <= i < |ups| && ups[i].node in g && 0 <= k < |g[ups[i].node].links| ::
      g[ups[i].node].links[k].id == id && TargetsGroup(g, ups[i].node, k, ups[i].child)
  }

  /** A link of a node the `down` walk reports. */
  ghost predicate DownRecords(g: Graph, downs: seq<NodeId>, id: nat) {
    exists i, k | 0 <= i < |downs| && downs[i] in g && 0 <= k < |g[downs[i]].links| :: g[downs[i]].links[k].id == id
  }

  lemma RecordedComesFromWalk(g: Graph, depth: map<NodeId, nat>, height: map<NodeId, nat>, n: NodeId, id: nat)
    requires UpRanked(g, depth) && DownRanked(g, height) && n in g
    requires NodesIn(g, UpAndDown(g, depth, height, n, true))
    requires exists i | 0 <= i < |UpAndDown(g, depth, height, n, true)| :: Records(g, UpAndDown(g, depth, height, n, true)[i], id)
    ensures UpRecords(g, Up(g, depth, n, None), id) || DownRecords(g, Down(g, height, n), id)
  {
    var invs := UpAndDown(g, depth, height, n, true);
    var ups := Up(g, depth, n, None);
    var downs := Down(g, height, n);
    var i :| 0 <= i < |invs| && Records(g, invs[i], id);
    var k :| 0 <= k < |g[invs[i].node].links| && g[invs[i].node].links[k].id == id &&
      (invs[i].callback == CallbackDown || (invs[i].child.Some? && TargetsGroup(g, invs[i].node, k, invs[i].child.value)));
    if i < |ups| {
      assert invs[i] == Invocation(CallbackUp, ups[i].node, Some(ups[i].child));
      assert TargetsGroup(g, ups[i].node, k, ups[i].child);
    } else {
      assert downs[i - |ups|] == invs[i].node;
    }
  }

  lemma WalkRecordsEveryLink(g: Graph, depth: map<NodeId, nat>, height: map<NodeId, nat>, n: NodeId, id: nat)
    requires UpRanked(g, depth) && DownRanked(g, height) && n in g
    requires UpRecords(g, Up(g, depth, n, None), id) || DownRecords(g, Down(g, height, n), id)
    ensures NodesIn(g, UpAndDown(g, depth, height, n, true))
    ensures exists i | 0 <= i < |UpAndDown(g, depth, height, n, true)| :: Records(g, UpAndDown(g, depth, height, n, true)[i], id)
  {
    var invs := UpAndDown(g, depth, height, n, true);
    var ups := Up(g, depth, n, None);
    var downs := Down(g, height, n);
    UpAndDownNodesIn(g, depth, height, n, true);
    if UpRecords(g, ups, id) {
      var i, k :| 0 <= i < |ups| && ups[i].node in g && 0 <= k < |g[ups[i].node].links| &&
        g[ups[i].node].links[k].id == id && TargetsGroup(g, ups[i].node, k, ups[i].child);
      assert invs[i] == Invocation(CallbackUp, ups[i].node, Some(ups[i].child));
      assert Records(g, invs[i], id);
    } else {
      var i, k :| 0 <= i < |downs| && downs[i] in g && 0 <= k < |g[downs[i]].links| && g[downs[i]].links[k].id == id;
      assert invs[|ups| + i] == Invocation(CallbackDown, downs[i], None);
      assert Records(g, invs[|ups| + i], id);
    }
  }

  /** The link ids `highlightNodes` records for its class: along the `up`
      walk, the links of a parent that target the child walked from; along
      the `down` walk, every link of every node reached; nothing else. */
  lemma HighlightRecordsExactly(g: Graph, depth: map<NodeId, nat>, height: map<NodeId, nat>,
                                s: HoverState, n: NodeId, className: Option<string>, id: nat)
    requires UpRanked(g, depth) && DownRanked(g, height) && n in g
    ensures id in HighlightNodes(g, depth, height, s, n, className).currentLinks[ClassNameOrDefault(className)]
      <==> UpRecords(g, Up(g, depth, n, None), id) || DownRecords(g, Down(g, height, n), id)
  {
    UpAndDownNodesIn(g, depth, height, n, true);
    if UpRecords(g, Up(g, depth, n, None), id) || DownRecords(g, Down(g, height, n), id) {
      WalkRecordsEveryLink(g, depth, height, n, id);
    }
    if id in HighlightNodes(g, depth, height, s, n, className).currentLinks[ClassNameOrDefault(className)] {
      RecordedComesFromWalk(g, depth, height, n, id);
    }
  }
}

=== FILE: lock.dfy ===
/** `Nodes.toggleLock`: at most one node is locked at a time. A node and its
    clones share one `id`; the model takes it to be the key of the group's
    original (`Orig`). Locking an id highlights, under the class `'lock'`,
    from every node element carrying it; unlocking dehighlights from each. */
module Lock {
  import opened Wrappers
  import opened Graph
  import opened Traversal
  import opened TraversalProps
  import opened Highlight

  /** A lock step names the `id` it locks or unlocks. */
  datatype LockAction = LockNode(id: NodeId) | UnlockNode(id: NodeId)

  /** The element now locked (`lockedNode`, the clicked element itself) and
      the lock/unlock steps taken, in order. */
  datatype LockResult = LockResult(lockedNode: Option<NodeId>, actions: seq<LockAction>)

  predicate LockedIn(g: Graph, lockedNode: Option<NodeId>) {
    lockedNode.Some? ==> lockedNode.value in g
  }

  /** `toggleLock(el)`: the locked element and the clicked one are compared
      by their shared `id`, so clicking any element of the locked group
      only unlocks. */
  function ToggleLock(g: Graph, lockedNode: Option<NodeId>, clicked: NodeId): (r: LockResult)
    requires clicked in g && LockedIn(g, lockedNode)
    ensures LockedIn(g, r.lockedNode)
    ensures lockedNode.None? ==> r == LockResult(Some(clicked), [LockNode(Orig(g, clicked))])
    ensures lockedNode.Some? && Orig(g, lockedNode.value) == Orig(g, clicked) ==>
      r == LockResult(None, [UnlockNode(Orig(g, clicked))])
    ensures lockedNode.Some? && Orig(g, lockedNode.value) != Orig(g, clicked) ==>
      r == LockResult(Some(clicked), [UnlockNode(Orig(g, lockedNode.value)), LockNode(Orig(g, clicked))])
  {
    match lockedNode
    case Some(locked) =>
      if Orig(g, locked) == Orig(g, clicked) then LockResult(None, [UnlockNode(Orig(g, locked))])
      else LockResult(Some(clicked), [UnlockNode(Orig(g, locked)), LockNode(Orig(g, clicked))])
    case None => LockResult(Some(clicked), [LockNode(Orig(g, clicked))])
  }

  /** The locked ids: that of the locked element, if any. */
  function LockedIds(g: Graph, lockedNode: Option<NodeId>): (s: set<NodeId>)
    requires LockedIn(g, lockedNode)
    ensures |s| <= 1
  {
    if lockedNode.Some? then {Orig(g, lockedNode.value)} else {}
  }

  /** The set of locked ids as the lock/unlock steps describe it. */
  function Replay(locked: set<NodeId>, actions: seq<LockAction>): set<NodeId>
    decreases |actions|
  {
    if |actions| == 0 then locked
    else
      var next := match actions[0]
        case LockNode(id) => locked + {id}
        case UnlockNode(id) => locked - {id};
      Replay(next, actions[1..])
  }

  /** Replaying the steps from the old locked id yields exactly the new one:
      at most one id is ever locked, and a previously locked id is always
      unlocked before another is locked. */
  lemma ToggleLockKeepsSingleton(g: Graph, lockedNode: Option<NodeId>, clicked: NodeId)
    requires clicked in g && LockedIn(g, lockedNode)
    ensures Replay(LockedIds(g, lockedNode), ToggleLock(g, lockedNode, clicked).actions)
         == LockedIds(g, ToggleLock(g, lockedNode, clicked).lockedNode)
    ensures |LockedIds(g, ToggleLock(g, lockedNode, clicked).lockedNode)| <= 1
  {
    var r := ToggleLock(g, lockedNode, clicked);
    var c := Orig(g, clicked);
    if lockedNode.Some? && Orig(g, lockedNode.value) != c {
      var l := Orig(g, lockedNode.value);
      assert r.actions[1..] == [LockNode(c)];
      assert {l} - {l} == {};
      assert Replay({l}, r.actions) == Replay({}, [LockNode(c)]);
      assert Replay({}, [LockNode(c)]) == Replay({c}, []);
    }
  }

  /** Clicking twice, each time on an element of the clicked group, comes
      back to the ids locked at the start, from the unlocked state or from
      one where that group is locked; clicking the very same element twice
      restores the locked element too. */
  lemma ToggleLockTwice(g: Graph, lockedNode: Option<NodeId>, clicked: NodeId)
    requires clicked in g && LockedIn(g, lockedNode)
    requires lockedNode.None? || Orig(g, lockedNode.value) == Orig(g, clicked)
    ensures var once := ToggleLock(g, lockedNode, clicked);
      LockedIds(g, ToggleLock(g, once.lockedNode, clicked).lockedNode) == LockedIds(g, lockedNode)
    ensures lockedNode.None? || lockedNode == Some(clicked) ==>
      ToggleLock(g, ToggleLock(g, lockedNode, clicked).lockedNode, clicked).lockedNode == lockedNode
  {
  }

  // ---------------------------------------------------------------------
  // lockNode / unlockNode

  /** The node elements, by key, in document order (`this.nodes`). */
  predicate DomIn(g: Graph, dom: seq<NodeId>) {
    forall i | 0 <= i < |dom| :: dom[i] in g
  }

  /** `this.nodes.filter(data.id === id)`: the elements carrying `id`, in
      document order. */
  function Carriers(g: Graph, dom: seq<NodeId>, id: NodeId): (r: seq<NodeId>)
    requires DomIn(g, dom)
    ensures DomIn(g, r)
    ensures forall x :: x in r <==> x in dom && x in g && Orig(g, x) == id
    decreases |dom|
  {
    if |dom| == 0 then []
    else
      var rest := Carriers(g, dom[1..], id);
      assert forall x :: x in dom <==> x == dom[0] || x in dom[1..] by {
        assert dom == [dom[0]] + dom[1..];
      }
      (if Orig(g, dom[0]) == id then [dom[0]] else []) + rest
  }

  /** `els.each(highlightNodes(this, data, className))`: a highlight from
      each element in turn. */
  function HighlightEach(g: Graph, depth: map<NodeId, nat>, height: map<NodeId, nat>,
                         s: HoverState, els: seq<NodeId>, className: Option<string>): (r: HoverState)
    requires UpRanked(g, depth) && DownRanked(g, height) && DomIn(g, els)
    ensures forall c | c in s.currentLinks && c != ClassNameOrDefault(className) ::
      c in r.currentLinks && r.currentLinks[c] == s.currentLinks[c]
    decreases |els|
  {
    if |els| == 0 then s
    else
      var front := els[..|els| - 1];
      assert DomIn(g, front) by {
        assert forall i | 0 <= i < |front| :: front[i] == els[i];
      }
      HighlightNodes(g, depth, height, HighlightEach(g, depth, height, s, front, className), els[|els| - 1], className)
  }

  /** `els.each(dehighlightNodes(this, data, className))`: a dehighlight
      from each element in turn. */
  function DehighlightEach(g: Graph, depth: map<NodeId, nat>, height: map<NodeId, nat>,
                           s: HoverState, els: seq<NodeId>): (r: HoverState)
    requires UpRanked(g, depth) && DownRanked(g, height) && DomIn(g, els)
    ensures r.currentLinks == s.currentLinks
    decreases |els|
  {
    if |els| == 0 then s
    else
      var front := els[..|els| - 1];
      assert DomIn(g, front) by {
        assert forall i | 0 <= i < |front| :: front[i] == els[i];
      }
      DehighlightNodes(g, depth, height, DehighlightEach(g, depth, height, s, front), els[|els| - 1])
  }

  /** `lockNode(id)` / `unlockNode(id)` for each step: highlight or
      dehighlight under `'lock'` from every element carrying the id. */
  function ApplyLockActions(g: Graph, depth: map<NodeId, nat>, height: map<NodeId, nat>,
                            dom: seq<NodeId>, s: HoverState, actions: seq<LockAction>): (r: HoverState)
    requires UpRanked(g, depth) && DownRanked(g, height) && DomIn(g, dom)
    ensures forall c | c in s.currentLinks && c != "lock" :: c in r.currentLinks && r.currentLinks[c] == s.currentLinks[c]
    decreases |actions|
  {
    if |actions| == 0 then s
    else
      var next := match actions[0]
        case LockNode(id) => HighlightEach(g, depth, height, s, Carriers(g, dom, id), Some("lock"))
        case UnlockNode(id) => DehighlightEach(g, depth, height, s, Carriers(g, dom, id));
      ApplyLockActions(g, depth, height, dom, next, actions[1..])
  }

  /** `lockNode(id)` ends with the highlight from the last element carrying
      the id. */
  lemma LockStep(g: Graph, depth: map<NodeId, nat>, height: map<NodeId, nat>,
                 dom: seq<NodeId>, s: HoverState, id: NodeId) returns (prev: HoverState, last: NodeId)
    requires UpRanked(g, depth) && DownRanked(g, height) && DomIn(g, dom)
    requires |Carriers(g, dom, id)| > 0
    ensures last == Carriers(g, dom, id)[|Carriers(g, dom, id)| - 1]
    ensures last in g && Orig(g, last) == id
    ensures ApplyLockActions(g, depth, height, dom, s, [LockNode(id)])
         == HighlightNodes(g, depth, height, prev, last, Some("lock"))
  {
    var cs := Carriers(g, dom, id);
    last := cs[|cs| - 1];
    assert last in cs;
    var front := cs[..|cs| - 1];
    assert DomIn(g, front) by {
      assert forall i | 0 <= i < |front| :: front[i] == cs[i];
    }
    prev := HighlightEach(g, depth, height, s, front, Some("lock"));
    var r := HighlightNodes(g, depth, height, prev, last, Some("lock"));
    assert ApplyLockActions(g, depth, height, dom, s, [LockNode(id)]) == ApplyLockActions(g, depth, height, dom, r, []);
  }

  /** `unlockNode(id)` ends with the dehighlight from the last element
      carrying the id. */
  lemma UnlockStep(g: Graph, depth: map<NodeId, nat>, height: map<NodeId, nat>,
                   dom: seq<NodeId>, s: HoverState, id: NodeId) returns (prev: HoverState, last: NodeId)
    requires UpRanked(g, depth) && DownRanked(g, height) && DomIn(g, dom)
    requires |Carriers(g, dom, id)| > 0
    ensures last in g && Orig(g, last) == id
    ensures prev.currentLinks == s.currentLinks
    ensures ApplyLockActions(g, depth, height, dom, s, [UnlockNode(id)])
         == DehighlightNodes(g, depth, height, prev, last)
  {
    var cs := Carriers(g, dom, id);
    last := cs[|cs| - 1];
    assert last in cs;
    var front := cs[..|cs| - 1];
    assert DomIn(g, front) by {
      assert forall i | 0 <= i < |front| :: front[i] == cs[i];
    }
    prev := DehighlightEach(g, depth, height, s, front);
    var r := DehighlightNodes(g, depth, height, prev, last);
    assert ApplyLockActions(g, depth, height, dom, s, [UnlockNode(id)]) == ApplyLockActions(g, depth, height, dom, r, []);
  }

  /** A highlight from a member of a clone group marks every other member
      except the original indirectly. */
  lemma HighlightMarksGroup(g: Graph, depth: map<NodeId, nat>, height: map<NodeId, nat>,
                            s: HoverState, n: NodeId, className: Option<string>)
    requires UpRanked(g, depth) && DownRanked(g, height) && n in g
    ensures var r := HighlightNodes(g, depth, height, s, n, className);
      forall x | x in g && Orig(g, x) == Orig(g, n) && x != Orig(g, n) && x != n ::
        x in r.hovering && r.hovering[x] == INDIRECTLY
  {
    forall x | x in g && Orig(g, x) == Orig(g, n) && x != Orig(g, n) && x != n
      ensures Touched(g, depth, height, n, x)
    {
      GroupTouched(g, depth, height, n, x);
    }
  }

  /** A highlight from any member of a clone group records the ids the walk
      from `n` records. */
  lemma HighlightRecordsForGroup(g: Graph, depth: map<NodeId, nat>, height: map<NodeId, nat>,
                                 s: HoverState, m: NodeId, n: NodeId, className: Option<string>)
    requires UpRanked(g, depth) && DownRanked(g, height) && m in g && n in g && Orig(g, m) == Orig(g, n)
    ensures var r := HighlightNodes(g, depth, height, s, m, className);
      forall id :: id in r.currentLinks[ClassNameOrDefault(className)] <==>
        UpRecords(g, Up(g, depth, n, None), id) || DownRecords(g, Down(g, height, n), id)
  {
    UpGroupAgree(g, depth, m, n, None);
    DownGroupAgree(g, height, m, n);
    forall id {
      HighlightRecordsExactly(g, depth, height, s, m, className, id);
    }
  }

  /** Locking with nothing locked, by clicking element `n`: the highlight
      from the last element carrying its id in document order decides the
      marks of the group. That element and the original are marked
      directly, every other member of the group indirectly, and `'lock'`
      holds exactly the ids the walk from `n` records, the same from every
      member of the group. */
  lemma LockFromNothing(g: Graph, depth: map<NodeId, nat>, height: map<NodeId, nat>,
                        dom: seq<NodeId>, s: HoverState, n: NodeId)
    requires UpRanked(g, depth) && DownRanked(g, height) && DomIn(g, dom) && n in dom
    ensures n in g
    ensures var cs := Carriers(g, dom, Orig(g, n));
      var r := ApplyLockActions(g, depth, height, dom, s, ToggleLock(g, None, n).actions);
      && |cs| > 0
      && Orig(g, n) in r.hovering && r.hovering[Orig(g, n)] == DIRECTLY
      && cs[|cs| - 1] in r.hovering && r.hovering[cs[|cs| - 1]] == DIRECTLY
      && (forall x | x in g && Orig(g, x) == Orig(g, n) && x != Orig(g, n) && x != cs[|cs| - 1] ::
            x in r.hovering && r.hovering[x] == INDIRECTLY)
      && "lock" in r.currentLinks
      && (forall id :: id in r.currentLinks["lock"] <==>
            UpRecords(g, Up(g, depth, n, None), id) || DownRecords(g, Down(g, height, n), id))
  {
    var o := Orig(g, n);
    assert n in Carriers(g, dom, o);
    var prev, last := LockStep(g, depth, height, dom, s, o);
    HighlightMarksGroup(g, depth, height, prev, last, Some("lock"));
    HighlightRecordsForGroup(g, depth, height, prev, last, n, Some("lock"));
  }

  /** Unlocking an id clears every node the hover walks from any element of
      its group touch, wherever the group's elements stand in the document,
      and leaves every class's link list as it was. */
  lemma UnlockClearsGroup(g: Graph, depth: map<NodeId, nat>, height: map<NodeId, nat>,
                          dom: seq<NodeId>, s: HoverState, n: NodeId)
    requires UpRanked(g, depth) && DownRanked(g, height) && DomIn(g, dom) && n in dom
    ensures n in g
    ensures var r := ApplyLockActions(g, depth, height, dom, s, [UnlockNode(Orig(g, n))]);
      && r.currentLinks == s.currentLinks
      && forall m, x | m in g && Orig(g, m) == Orig(g, n) && Touched(g, depth, height, m, x) ::
           x in r.hovering && r.hovering[x] == NONE
  {
    var o := Orig(g, n);
    assert n in Carriers(g, dom, o);
    var prev, last := UnlockStep(g, depth, height, dom, s, o);
    forall m, x | m in g && Orig(g, m) == o && Touched(g, depth, height, m, x)
      ensures Touched(g, depth, height, last, x)
    {
      GroupTouchesAlike(g, depth, height, m, last, x);
    }
  }

  /** Locking by clicking one element and then clicking any element of the
      same group (the same element or one of its clones) unlocks, leaves
      nothing locked, and clears every node the walks from the group touch. */
  lemma LockThenClickGroup(g: Graph, depth: map<NodeId, nat>, height: map<NodeId, nat>,
                           dom: seq<NodeId>, s: HoverState, n: NodeId, k: NodeId)
    requires UpRanked(g, depth) && DownRanked(g, height) && DomIn(g, dom) && n in dom && k in dom
    requires n in g && k in g && Orig(g, k) == Orig(g, n)
    ensures var first := ToggleLock(g, None, n);
      var second := ToggleLock(g, first.lockedNode, k);
      var r := ApplyLockActions(g, depth, height, dom,
                 ApplyLockActions(g, depth, height, dom, s, first.actions), second.actions);
      && second.lockedNode.None?
      && forall x | Touched(g, depth, height, n, x) :: x in r.hovering && r.hovering[x] == NONE
  {
    var s1 := ApplyLockActions(g, depth, height, dom, s, ToggleLock(g, None, n).actions);
    UnlockClearsGroup(g, depth, height, dom, s1, k);
  }
}

=== FILE: sorting.dfy ===
/** Per-column sort state: a sort type (the bar property sorted by) and an
    order, 0 = unsorted, 1 = ascending, -1 = descending. Two versions of the
    topbar exist: the source one alternates the order across types, the
    bundled one also tracks a global sorting and resets the order when the
    type changes. */
module Sorting {
  import opened Wrappers

  /** A column's sort state; `sortType` is `None` while `type` is undefined. */
  datatype ColumnSort = ColumnSort(sortType: Option<string>, order: int)

  /** A column's index. */
  type ColumnIndex = int

  /** The topbar's `sorting` object, keyed by column index. */
  type Columns = map<ColumnIndex, ColumnSort>

  /** The unsorted state of a freshly built column. */
  const Unsorted := ColumnSort(None, 0)

  /** The topbar constructor: one unsorted entry per column. */
  function InitSorting(columns: nat): (r: Columns)
    ensures forall i :: i in r <==> 0 <= i < columns
    ensures forall i | i in r :: r[i].sortType.None? && r[i].order == 0
  {
    if columns == 0 then map[] else InitSorting(columns - 1)[columns - 1 := Unsorted]
  }

  /** The order a sort click moves to: ascending after descending,
      descending after anything else. */
  function FlipOrder(order: int): (r: int)
    ensures r == -1 || r == 1
    ensures r == 1 <==> order == -1
  {
    if order == -1 then 1 else -1
  }

  // ---------------------------------------------------------------------
  // Topbar.sortColumn as in the source tree

  /** The new state and the order handed on to `vis.sortColumn`. */
  datatype SortOutcome = SortOutcome(columns: Columns, order: int)

  /** `sortColumn(el, index, type)`: the column takes the requested type and
      its order flips; the type change does not reset the order. */
  function SortColumn(cols: Columns, index: ColumnIndex, sortType: string): (r: SortOutcome)
    requires index in cols
    ensures r.columns.Keys == cols.Keys
    ensures r.columns[index] == ColumnSort(Some(sortType), r.order)
    ensures r.order == -1 || r.order == 1
    ensures r.order == 1 <==> cols[index].order == -1
    ensures forall i | i in cols && i != index :: r.columns[i] == cols[i]
  {
    var order := FlipOrder(cols[index].order);
    SortOutcome(cols[index := ColumnSort(Some(sortType), order)], order)
  }

  /** The state after clicking `index` with each of `types` in turn. */
  function SortRepeatedly(cols: Columns, index: ColumnIndex, types: seq<string>): (r: Columns)
    requires index in cols
    ensures index in r
  {
    if |types| == 0 then cols
    else SortColumn(SortRepeatedly(cols, index, types[..|types| - 1]), index, types[|types| - 1]).columns
  }

  /** On a fresh column the clicks yield -1, 1, -1, …, whatever types are
      requested, and every other column keeps its state. */
  lemma {:induction false} SortAlternates(cols: Columns, index: ColumnIndex, types: seq<string>)
    requires index in cols && cols[index].order == 0
    ensures |types| > 0 ==>
      SortRepeatedly(cols, index, types)[index] ==
        ColumnSort(Some(types[|types| - 1]), if |types| % 2 == 1 then -1 else 1)
    ensures SortRepeatedly(cols, index, types).Keys == cols.Keys
    ensures forall i | i in cols && i != index :: SortRepeatedly(cols, index, types)[i] == cols[i]
  {
    if |types| > 0 {
      SortAlternates(cols, index, types[..|types| - 1]);
    }
  }

  /** The first click on a fresh topbar column sorts it descending. */
  lemma FirstSortDescends(columns: nat, index: ColumnIndex, sortType: string)
    requires 0 <= index < columns
    ensures SortColumn(InitSorting(columns), index, sortType).order == -1
  {
  }

  // ---------------------------------------------------------------------
  // Topbar.sortColumn / sortAllColumns as in the bundle

  /** `currentSorting`: the global sort type, whether a global sort button
      is recorded as `global.el`, and the per-column states. */
  datatype CurrentSorting = CurrentSorting(globalType: Option<string>, globalEl: bool, local: Columns)

  /** The global sort buttons; the constructor records one as `global.el`
      only when the initial `sortBy` names it. */
  function BundleInitialGlobalEl(sortBy: Option<string>): (r: bool)
    ensures r <==> sortBy.Some? && sortBy.value in {"precision", "recall", "name"}
  {
    match sortBy
    case None => false
    case Some(t) => t == "precision" || t == "recall" || t == "name"
  }

  /** One call `vis.sortColumn(index, type, order, newSortType)`. */
  datatype SortCall = SortCall(index: ColumnIndex, sortType: string, order: int, newSortType: bool)

  /** The state after the click and the call it hands on; `None` when the
      click throws before reaching `vis.sortColumn`. */
  datatype BundleOutcome = BundleOutcome(sorting: CurrentSorting, call: Option<SortCall>)

  /** `sortColumn(el, index, type, global)`: a non-global click clears the
      global type and then resets `global.el`, which throws when no global
      button was ever recorded; otherwise a type change resets the column's
      order to 0 before it flips. */
  function BundleSortColumn(cs: CurrentSorting, index: ColumnIndex, sortType: string, global: bool): (r: BundleOutcome)
    requires index in cs.local
    ensures r.sorting.globalType == (if global then cs.globalType else None)
    ensures r.sorting.globalEl == cs.globalEl
    ensures r.call.None? <==> !global && !cs.globalEl
    ensures r.call.None? ==> r.sorting.local == cs.local
    ensures r.sorting.local.Keys == cs.local.Keys
    ensures r.call.Some? ==>
      && r.call.value.index == index && r.call.value.sortType == sortType
      && (r.call.value.newSortType <==> cs.local[index].sortType != Some(sortType))
      && r.sorting.local[index] == ColumnSort(Some(sortType), r.call.value.order)
      && (r.call.value.order == -1 || r.call.value.order == 1)
      && (r.call.value.order == 1 <==> cs.local[index] == ColumnSort(Some(sortType), -1))
    ensures forall i | i in cs.local && i != index :: r.sorting.local[i] == cs.local[i]
  {
    var globalType := if global then cs.globalType else None;
    if !global && !cs.globalEl then
      BundleOutcome(CurrentSorting(globalType, cs.globalEl, cs.local), None)
    else
      var newSortType := cs.local[index].sortType != Some(sortType);
      var previous := if newSortType then 0 else cs.local[index].order;
      var order := FlipOrder(previous);
      BundleOutcome(
        CurrentSorting(globalType, cs.globalEl, cs.local[index := ColumnSort(Some(sortType), order)]),
        Some(SortCall(index, sortType, order, newSortType)))
  }

  /** Without a `sortBy` option no global button is recorded, so the first
      click on a column's sort button throws: it only clears the global
      type, leaves the column as it was and never calls `vis.sortColumn`. */
  lemma DefaultFirstColumnClickThrows(local: Columns, index: ColumnIndex, sortType: string)
    requires index in local
    ensures var cs := CurrentSorting(None, BundleInitialGlobalEl(None), local);
      var r := BundleSortColumn(cs, index, sortType, false);
      r.call.None? && r.sorting == cs
  {
  }

  /** Clicking a column twice with the same type, whatever its state, sorts
      it descending and then ascending; a click that throws throws again. */
  lemma {:induction false} BundleSameTypeAlternates(cs: CurrentSorting, index: ColumnIndex, sortType: string, global: bool)
    requires index in cs.local
    ensures var first := BundleSortColumn(cs, index, sortType, global);
      var second := BundleSortColumn(first.sorting, index, sortType, global);
      && (first.call.None? <==> second.call.None?)
      && (first.call.Some? && first.call.value.order == -1 ==> second.call.Some? && second.call.value.order == 1)
      && (first.call.Some? && first.call.value.order == 1 ==> second.call.Some? && second.call.value.order == -1)
  {
  }

  /** A global click never throws and depends only on that column's own state. */
  lemma BundleSortColumnLocal(cs: CurrentSorting, other: CurrentSorting, index: ColumnIndex, sortType: string)
    requires index in cs.local && index in other.local
    requires other.local[index] == cs.local[index]
    ensures BundleSortColumn(cs, index, sortType, true).call.Some?
    ensures BundleSortColumn(other, index, sortType, true).call == BundleSortColumn(cs, index, sortType, true).call
    ensures BundleSortColumn(other, index, sortType, true).sorting.local[index] ==
      BundleSortColumn(cs, index, sortType, true).sorting.local[index]
  {
  }

  /** `sortAllColumns(el, type)`: the clicked button becomes `global.el`
      and `type` the global type, then every column, in the order
      `Object.keys` lists them, is sorted globally. */
  method BundleSortAllColumns(cs: CurrentSorting, columnKeys: seq<ColumnIndex>, sortType: string)
    returns (r: CurrentSorting, calls: seq<SortCall>)
    requires forall i | 0 <= i < |columnKeys| :: columnKeys[i] in cs.local
    requires forall k | k in cs.local :: k in columnKeys
    requires forall i, j | 0 <= i < j < |columnKeys| :: columnKeys[i] != columnKeys[j]
    ensures r.globalType == Some(sortType) && r.globalEl
    ensures r.local.Keys == cs.local.Keys
    ensures |calls| == |columnKeys|
    ensures forall i | 0 <= i < |calls| ::
      Some(calls[i]) == BundleSortColumn(cs, columnKeys[i], sortType, true).call
    ensures forall k | k in cs.local ::
      r.local[k] == BundleSortColumn(cs, k, sortType, true).sorting.local[k]
  {
    r := CurrentSorting(Some(sortType), true, cs.local);
    calls := [];
    var n := 0;
    while n < |columnKeys|
      invariant 0 <= n <= |columnKeys|
      invariant r.globalType == Some(sortType) && r.globalEl
      invariant r.local.Keys == cs.local.Keys
      invariant |calls| == n
      invariant forall i | 0 <= i < n ::
        Some(calls[i]) == BundleSortColumn(cs, columnKeys[i], sortType, true).call
      invariant forall i | 0 <= i < n ::
        r.local[columnKeys[i]] == BundleSortColumn(cs, columnKeys[i], sortType, true).sorting.local[columnKeys[i]]
      invariant forall i | n <= i < |columnKeys| :: r.local[columnKeys[i]] == cs.local[columnKeys[i]]
    {
      var step := BundleSortColumn(r, columnKeys[n], sortType, true);
      BundleSortColumnLocal(cs, r, columnKeys[n], sortType);
      assert forall i | 0 <= i < |columnKeys| && i != n :: columnKeys[i] != columnKeys[n];
      r := step.sorting;
      calls := calls + [step.call.value];
      n := n + 1;
    }
    forall k | k in cs.local
      ensures r.local[k] == BundleSortColumn(cs, k, sortType, true).sorting.local[k]
    {
      var i :| 0 <= i < |columnKeys| && columnKeys[i] == k;
    }
  }

  // ---------------------------------------------------------------------
  // ListGraph.sortAllColumns (the visualisation side)

  /** The global order `sortAllColumns(property, newSortType)` stores:
      ascending only when the previous one was descending and the type is
      unchanged. */
  function GlobalOrder(order: int, newSortType: bool): (r: int)
    ensures r == -1 || r == 1
    ensures r == 1 <==> (order == -1 && !newSortType)
  {
    if order == -1 && !newSortType then 1 else -1
  }

  /** The global order after a sequence of sort requests, each flagged with
      whether it changed the type. */
  function GlobalOrders(order: int, newTypes: seq<bool>): int {
    if |newTypes| == 0 then order
    else GlobalOrder(GlobalOrders(order, newTypes[..|newTypes| - 1]), newTypes[|newTypes| - 1])
  }

  /** After a type change, k further requests of the same type leave the
      order descending for odd k + 1 and ascending for even k + 1. */
  lemma {:induction false} GlobalOrderAlternates(order: int, k: nat)
    ensures GlobalOrders(order, [true] + seq(k, _ => false)) == (if k % 2 == 0 then -1 else 1)
  {
    if k > 0 {
      var prefix := [true] + seq(k - 1, _ => false);
      assert ([true] + seq(k, _ => false))[..k] == prefix;
      GlobalOrderAlternates(order, k - 1);
    }
  }
}

=== FILE: traversal.dfy ===
/** Clone-aware recursive walks over the node graph (`up`, `down`,
    `upAndDown`). A walk is modelled by the sequence of callback invocations
    it makes, in the order it makes them. The walks keep no visited set and
    no depth bound, so termination rests on the graph being acyclic, stated
    by a rank on clone groups that decreases along every step a walk takes. */
module Traversal {
  import opened Wrappers
  import opened Graph

  /** Parents of any node belong to groups of smaller depth. */
  predicate UpRanked(g: Graph, depth: map<NodeId, nat>) {
    && WellFormed(g)
    && (forall n | n in g :: n in depth)
    && (forall n, j | n in g && 0 <= j < |g[n].parents| ::
          depth[Orig(g, g[n].parents[j])] < depth[Orig(g, n)])
  }

  /** Children of any node belong to groups of smaller height. */
  predicate DownRanked(g: Graph, height: map<NodeId, nat>) {
    && WellFormed(g)
    && (forall n | n in g :: n in height)
    && (forall n, j | n in g && 0 <= j < |g[n].childRefs| ::
          height[Orig(g, g[n].childRefs[j])] < height[Orig(g, n)])
  }

  // ---------------------------------------------------------------------
  // up

  /** One invocation `callback(node, child)` of the `up` walk. */
  datatype UpCall = UpCall(node: NodeId, child: NodeId)

  /** `x` stands for (is a member of the clone group of) a parent of `c`. */
  ghost predicate ParentOf(g: Graph, x: NodeId, c: NodeId)
    requires WellFormed(g) && x in g && c in g
  {
    exists j | 0 <= j < |g[c].parents| :: Orig(g, g[c].parents[j]) == Orig(g, x)
  }

  /** The edge `(call.node, call.child)` lies above `n`: `call.child` belongs
      to the clone group of `n` and `call.node` stands for one of its
      parents, or the edge lies above a parent of a member of that group. */
  ghost predicate Above(g: Graph, depth: map<NodeId, nat>, n: NodeId, call: UpCall)
    requires UpRanked(g, depth) && n in g && call.node in g && call.child in g
    decreases depth[Orig(g, n)]
  {
    || (Orig(g, call.child) == Orig(g, n) && ParentOf(g, call.node, call.child))
    || exists m, j | m in g && Orig(g, m) == Orig(g, n) && 0 <= j < |g[m].parents| ::
         Above(g, depth, g[m].parents[j], call)
  }

  /** What every invocation of a walk `up(n, …, child)` satisfies: it is a
      top-level invocation on a member of the group of `n` with the given
      child, or it reports an edge strictly above `n`. */
  ghost predicate UpCallOk(g: Graph, depth: map<NodeId, nat>, n: NodeId, child: Option<NodeId>, call: UpCall)
    requires UpRanked(g, depth) && n in g
  {
    && call.node in g && call.child in g
    && depth[Orig(g, call.node)] <= depth[Orig(g, n)]
    && (|| (child == Some(call.child) && Orig(g, call.node) == Orig(g, n))
        || (depth[Orig(g, call.node)] < depth[Orig(g, n)] && Above(g, depth, n, call)))
  }

  /** `up(node, callback, child)`: for every member of the clone group, from
      the last to the first, report `(member, child)` when a child is given,
      then walk up from each parent of the member, from the last parent to
      the first, with the member as child. */
  function Up(g: Graph, depth: map<NodeId, nat>, n: NodeId, child: Option<NodeId>): seq<UpCall>
    requires UpRanked(g, depth) && n in g
    requires child.Some? ==> child.value in g
    decreases depth[Orig(g, n)], 2
  {
    Flatten(UpMemberWalks(g, depth, n, child))
  }

  /** What `up` does for each member of the group, last member first. */
  function UpMemberWalks(g: Graph, depth: map<NodeId, nat>, n: NodeId, child: Option<NodeId>): (r: seq<seq<UpCall>>)
    requires UpRanked(g, depth) && n in g
    requires child.Some? ==> child.value in g
    ensures |r| == |CollectInclClones(g, n)|
    decreases depth[Orig(g, n)], 1
  {
    var members := CollectInclClones(g, n);
    CollectedAreGroup(g, n);
    seq(|members|, i requires 0 <= i < |members| =>
      var m := members[|members| - 1 - i];
      (if child.Some? then [UpCall(m, child.value)] else []) + Flatten(UpParentWalks(g, depth, n, m)))
  }

  /** The walks up from each parent of the member `m`, last parent first. */
  function UpParentWalks(g: Graph, depth: map<NodeId, nat>, n: NodeId, m: NodeId): (r: seq<seq<UpCall>>)
    requires UpRanked(g, depth) && n in g && m in g && Orig(g, m) == Orig(g, n)
    ensures |r| == |g[m].parents|
    decreases depth[Orig(g, n)], 0
  {
    var parents := g[m].parents;
    seq(|parents|, j requires 0 <= j < |parents| => Up(g, depth, parents[|parents| - 1 - j], Some(m)))
  }

  // ---------------------------------------------------------------------
  // down

  /** `x` is reached walking down from `n`: it belongs to the clone group of
      `n`, or it is reached from a child of some member of that group. */
  ghost predicate Reaches(g: Graph, height: map<NodeId, nat>, n: NodeId, x: NodeId)
    requires DownRanked(g, height) && n in g && x in g
    decreases height[Orig(g, n)]
  {
    || Orig(g, x) == Orig(g, n)
    || exists m, j | m in g && Orig(g, m) == Orig(g, n) && 0 <= j < |g[m].childRefs| ::
         Reaches(g, height, g[m].childRefs[j], x)
  }

  /** `down(node, callback)`: for every member of the clone group, from the
      last to the first, report the member, then walk down from each of its
      children, from the last child to the first. */
  function Down(g: Graph, height: map<NodeId, nat>, n: NodeId): seq<NodeId>
    requires DownRanked(g, height) && n in g
    decreases height[Orig(g, n)], 2
  {
    Flatten(DownMemberWalks(g, height, n))
  }

  /** What `down` does for each member of the group, last member first. */
  function DownMemberWalks(g: Graph, height: map<NodeId, nat>, n: NodeId): (r: seq<seq<NodeId>>)
    requires DownRanked(g, height) && n in g
    ensures |r| == |CollectInclClones(g, n)|
    decreases height[Orig(g, n)], 1
  {
    var members := CollectInclClones(g, n);
    CollectedAreGroup(g, n);
    seq(|members|, i requires 0 <= i < |members| =>
      var m := members[|members| - 1 - i];
      [m] + Flatten(DownChildWalks(g, height, n, m)))
  }

  /** The walks down from each child of the member `m`, last child first. */
  function DownChildWalks(g: Graph, height: map<NodeId, nat>, n: NodeId, m: NodeId): (r: seq<seq<NodeId>>)
    requires DownRanked(g, height) && n in g && m in g && Orig(g, m) == Orig(g, n)
    ensures |r| == |g[m].childRefs|
    decreases height[Orig(g, n)], 0
  {
    var children := g[m].childRefs;
    seq(|children|, j requires 0 <= j < |children| => Down(g, height, children[|children| - 1 - j]))
  }

  // ---------------------------------------------------------------------
  // upAndDown

  datatype Callback = CallbackUp | CallbackDown

  /** One invocation of a callback; `child` is absent for `down` steps. */
  datatype Invocation = Invocation(callback: Callback, node: NodeId, child: Option<NodeId>)

  /** The `up` walk's reports as invocations of `callbackUp`. */
  function UpInvocations(ups: seq<UpCall>): (r: seq<Invocation>)
    ensures |r| == |ups|
    ensures forall i | 0 <= i < |r| :: r[i] == Invocation(CallbackUp, ups[i].node, Some(ups[i].child))
  {
    seq(|ups|, i requires 0 <= i < |ups| => Invocation(CallbackUp, ups[i].node, Some(ups[i].child)))
  }

  /** The `down` walk's reports as invocations of the given callback. */
  function DownInvocations(downs: seq<NodeId>, callback: Callback): (r: seq<Invocation>)
    ensures |r| == |downs|
    ensures forall i | 0 <= i < |r| :: r[i] == Invocation(callback, downs[i], None)
  {
    seq(|downs|, i requires 0 <= i < |downs| => Invocation(callback, downs[i], None))
  }

  /** `upAndDown(node, callbackUp, callbackDown)`: the whole `up` walk with
      `callbackUp`, then the whole `down` walk, with `callbackDown` when one
      is given and with `callbackUp` otherwise. */
  function UpAndDown(g: Graph, depth: map<NodeId, nat>, height: map<NodeId, nat>, n: NodeId, hasCallbackDown: bool): (r: seq<Invocation>)
    requires UpRanked(g, depth) && DownRanked(g, height) && n in g
    ensures |r| == |Up(g, depth, n, None)| + |Down(g, height, n)|
    ensures forall i | 0 <= i < |Up(g, depth, n, None)| ::
      r[i] == Invocation(CallbackUp, Up(g, depth, n, None)[i].node, Some(Up(g, depth, n, None)[i].child))
    ensures forall i | |Up(g, depth, n, None)| <= i < |r| ::
      r[i] == Invocation(if hasCallbackDown then CallbackDown else CallbackUp,
                         Down(g, height, n)[i - |Up(g, depth, n, None)|], None)
  {
    var ups := Up(g, depth, n, None);
    var downs := Down(g, height, n);
    UpInvocations(ups) + DownInvocations(downs, if hasCallbackDown then CallbackDown else CallbackUp)
  }

  // ---------------------------------------------------------------------
  // sequences of walks

  /** The walks one after the other. */
  function Flatten<T>(parts: seq<seq<T>>): seq<T> {
    if |parts| == 0 then [] else parts[0] + Flatten(parts[1..])
  }

  /** Whatever one walk reports is reported by the walks together. */
  lemma {:induction false} FlattenContains<T>(parts: seq<seq<T>>, i: nat, x: T)
    requires i < |parts| && x in parts[i]
    ensures x in Flatten(parts)
  {
    if i > 0 {
      FlattenContains(parts[1..], i - 1, x);
    }
  }

  /** Whatever the walks together report, one of them reports. */
  lemma {:induction false} FlattenIndex<T>(parts: seq<seq<T>>, x: T) returns (i: nat)
    requires x in Flatten(parts)
    ensures i < |parts| && x in parts[i]
  {
    if x in parts[0] {
      i := 0;
    } else {
      var k := FlattenIndex(parts[1..], x);
      i := k + 1;
    }
  }
}

=== FILE: traversal_props.dfy ===
/** Properties of the clone-aware walks: what `up` reports and what it never
    reports, and that `down` reports exactly the nodes reachable downward and
    is closed under children and clone expansion. */
module TraversalProps {
  import opened Wrappers
  import opened Graph
  import opened Traversal

  /** Position of a group member in the collected list. */
  lemma MemberIndex(g: Graph, n: NodeId, m: NodeId) returns (i: nat)
    requires WellFormed(g) && n in g && m in g && Orig(g, m) == Orig(g, n)
    ensures i < |CollectInclClones(g, n)| && CollectInclClones(g, n)[i] == m
  {
    GroupIsCollected(g, n, m);
    i :| 0 <= i < |CollectInclClones(g, n)| && CollectInclClones(g, n)[i] == m;
  }

  // ---------------------------------------------------------------------
  // up

  /** The `i`-th walk of `up` from the group: the top-level report of the
      member, then the walks up from its parents. */
  lemma UpMemberWalkAt(g: Graph, depth: map<NodeId, nat>, n: NodeId, child: Option<NodeId>, i: nat)
    returns (m: NodeId)
    requires UpRanked(g, depth) && n in g
    requires child.Some? ==> child.value in g
    requires i < |CollectInclClones(g, n)|
    ensures m == CollectInclClones(g, n)[|CollectInclClones(g, n)| - 1 - i]
    ensures m in g && Orig(g, m) == Orig(g, n)
    ensures UpMemberWalks(g, depth, n, child)[i] ==
      (if child.Some? then [UpCall(m, child.value)] else []) + Flatten(UpParentWalks(g, depth, n, m))
  {
    CollectedAreGroup(g, n);
    m := CollectInclClones(g, n)[|CollectInclClones(g, n)| - 1 - i];
  }

  /** The `k`-th walk up from the parents of `m`. */
  lemma UpParentWalkAt(g: Graph, depth: map<NodeId, nat>, n: NodeId, m: NodeId, k: nat)
    requires UpRanked(g, depth) && n in g && m in g && Orig(g, m) == Orig(g, n)
    requires k < |g[m].parents|
    ensures UpParentWalks(g, depth, n, m)[k] == Up(g, depth, g[m].parents[|g[m].parents| - 1 - k], Some(m))
  {
  }

  /** A report of `up` comes from the walk of one group member: its
      top-level report or the walks up from its parents. */
  lemma UpReportMember(g: Graph, depth: map<NodeId, nat>, n: NodeId, child: Option<NodeId>, c: UpCall)
    returns (m: NodeId)
    requires UpRanked(g, depth) && n in g
    requires child.Some? ==> child.value in g
    requires c in Up(g, depth, n, child)
    ensures m in g && Orig(g, m) == Orig(g, n)
    ensures (child.Some? && c == UpCall(m, child.value)) || c in Flatten(UpParentWalks(g, depth, n, m))
  {
    var i := FlattenIndex(UpMemberWalks(g, depth, n, child), c);
    m := UpMemberWalkAt(g, depth, n, child, i);
  }

  /** A report of the walks up from the parents of `m` comes from the walk
      up from one parent. */
  lemma UpReportParent(g: Graph, depth: map<NodeId, nat>, n: NodeId, m: NodeId, c: UpCall) returns (j: nat)
    requires UpRanked(g, depth) && n in g && m in g && Orig(g, m) == Orig(g, n)
    requires c in Flatten(UpParentWalks(g, depth, n, m))
    ensures j < |g[m].parents| && c in Up(g, depth, g[m].parents[j], Some(m))
  {
    var k := FlattenIndex(UpParentWalks(g, depth, n, m), c);
    UpParentWalkAt(g, depth, n, m, k);
    j := |g[m].parents| - 1 - k;
  }

  /** Soundness of `up`, one report at a time. */
  lemma {:induction false} UpReportSound(g: Graph, depth: map<NodeId, nat>, n: NodeId, child: Option<NodeId>, c: UpCall)
    requires UpRanked(g, depth) && n in g
    requires child.Some? ==> child.value in g
    requires c in Up(g, depth, n, child)
    ensures UpCallOk(g, depth, n, child, c)
    decreases depth[Orig(g, n)]
  {
    var m := UpReportMember(g, depth, n, child, c);
    if !(child.Some? && c == UpCall(m, child.value)) {
      var j := UpReportParent(g, depth, n, m, c);
      var p := g[m].parents[j];
      UpReportSound(g, depth, p, Some(m), c);
      if c.child == m && Orig(g, c.node) == Orig(g, p) {
        assert ParentOf(g, c.node, c.child);
      } else {
        assert Above(g, depth, p, c);
      }
    }
  }

  /** Soundness of `up`: every invocation is a top-level report of a
      member of the start node's group with the given child, or an edge
      strictly above the start node. */
  lemma UpSound(g: Graph, depth: map<NodeId, nat>, n: NodeId, child: Option<NodeId>)
    requires UpRanked(g, depth) && n in g
    requires child.Some? ==> child.value in g
    ensures forall c | c in Up(g, depth, n, child) :: UpCallOk(g, depth, n, child, c)
  {
    forall c | c in Up(g, depth, n, child)
      ensures UpCallOk(g, depth, n, child, c)
    {
      UpReportSound(g, depth, n, child, c);
    }
  }

  /** Called without a child, `up` never reports the start node or any of
      its clones: every report concerns a group strictly above it. */
  lemma UpOmitsStartGroup(g: Graph, depth: map<NodeId, nat>, n: NodeId)
    requires UpRanked(g, depth) && n in g
    ensures forall c | c in Up(g, depth, n, None) :: c.node !in CollectInclClones(g, n)
  {
    CollectedAreGroup(g, n);
    UpSound(g, depth, n, None);
  }

  /** An edge above `n` is a parent edge: its node stands for a parent of
      its child. */
  lemma {:induction false} AboveIsParentEdge(g: Graph, depth: map<NodeId, nat>, n: NodeId, call: UpCall)
    requires UpRanked(g, depth) && n in g && call.node in g && call.child in g
    requires Above(g, depth, n, call)
    ensures ParentOf(g, call.node, call.child)
    decreases depth[Orig(g, n)]
  {
    if !(Orig(g, call.child) == Orig(g, n) && ParentOf(g, call.node, call.child)) {
      var m, j :| m in g && Orig(g, m) == Orig(g, n) && 0 <= j < |g[m].parents| &&
        Above(g, depth, g[m].parents[j], call);
      AboveIsParentEdge(g, depth, g[m].parents[j], call);
    }
  }

  /** Every invocation `callback(x, c)` of a top-level `up` walk has `x` in
      the clone group of some parent of `c`. */
  lemma UpReportsParentEdges(g: Graph, depth: map<NodeId, nat>, n: NodeId)
    requires UpRanked(g, depth) && n in g
    ensures forall c | c in Up(g, depth, n, None) :: c.node in g && c.child in g
    ensures forall c | c in Up(g, depth, n, None) :: ParentOf(g, c.node, c.child)
  {
    UpSound(g, depth, n, None);
    forall c | c in Up(g, depth, n, None)
      ensures ParentOf(g, c.node, c.child)
    {
      AboveIsParentEdge(g, depth, n, c);
    }
  }

  /** Given a child, `up` reports every member of the group with it. */
  lemma UpReportsGroupWithChild(g: Graph, depth: map<NodeId, nat>, n: NodeId, c: NodeId, x: NodeId)
    requires UpRanked(g, depth) && n in g && c in g && x in g && Orig(g, x) == Orig(g, n)
    ensures UpCall(x, c) in Up(g, depth, n, Some(c))
  {
    var i := MemberIndex(g, n, x);
    var k := |CollectInclClones(g, n)| - 1 - i;
    var _ := UpMemberWalkAt(g, depth, n, Some(c), k);
    FlattenContains(UpMemberWalks(g, depth, n, Some(c)), k, UpCall(x, c));
  }

  /** Walking up from a parent of a group member is part of walking up from
      the group. */
  lemma UpContainsParentWalk(g: Graph, depth: map<NodeId, nat>, n: NodeId, child: Option<NodeId>, m: NodeId, j: nat, call: UpCall)
    requires UpRanked(g, depth) && n in g && m in g && Orig(g, m) == Orig(g, n)
    requires child.Some? ==> child.value in g
    requires j < |g[m].parents|
    requires call in Up(g, depth, g[m].parents[j], Some(m))
    ensures call in Up(g, depth, n, child)
  {
    var walks := UpParentWalks(g, depth, n, m);
    var jj := |g[m].parents| - 1 - j;
    UpParentWalkAt(g, depth, n, m, jj);
    FlattenContains(walks, jj, call);
    var i := MemberIndex(g, n, m);
    var k := |CollectInclClones(g, n)| - 1 - i;
    var _ := UpMemberWalkAt(g, depth, n, child, k);
    FlattenContains(UpMemberWalks(g, depth, n, child), k, call);
  }

  /** Completeness of `up`: every edge above the start node is reported,
      whatever child the walk was started with. */
  lemma {:induction false} UpComplete(g: Graph, depth: map<NodeId, nat>, n: NodeId, child: Option<NodeId>, call: UpCall)
    requires UpRanked(g, depth) && n in g && call.node in g && call.child in g
    requires child.Some? ==> child.value in g
    requires Above(g, depth, n, call)
    ensures call in Up(g, depth, n, child)
    decreases depth[Orig(g, n)]
  {
    if Orig(g, call.child) == Orig(g, n) && ParentOf(g, call.node, call.child) {
      var m := call.child;
      var j :| 0 <= j < |g[m].parents| && Orig(g, g[m].parents[j]) == Orig(g, call.node);
      UpReportsGroupWithChild(g, depth, g[m].parents[j], m, call.node);
      UpContainsParentWalk(g, depth, n, child, m, j, call);
    } else {
      var m, j :| m in g && Orig(g, m) == Orig(g, n) && 0 <= j < |g[m].parents| &&
        Above(g, depth, g[m].parents[j], call);
      UpComplete(g, depth, g[m].parents[j], Some(m), call);
      UpContainsParentWalk(g, depth, n, child, m, j, call);
    }
  }

  /** `up` without a child reports exactly the edges above the start node. */
  lemma UpExactlyAbove(g: Graph, depth: map<NodeId, nat>, n: NodeId, call: UpCall)
    requires UpRanked(g, depth) && n in g && call.node in g && call.child in g
    ensures call in Up(g, depth, n, None) <==> Above(g, depth, n, call)
  {
    UpSound(g, depth, n, None);
    if Above(g, depth, n, call) {
      UpComplete(g, depth, n, None, call);
    }
  }

  /** Members are visited from the last to the first: given a child, the
      first report of `up` is the last member of the group. */
  lemma UpStartsWithLastMember(g: Graph, depth: map<NodeId, nat>, n: NodeId, c: NodeId)
    requires UpRanked(g, depth) && n in g && c in g
    ensures var members := CollectInclClones(g, n);
      |Up(g, depth, n, Some(c))| > 0 && Up(g, depth, n, Some(c))[0] == UpCall(members[|members| - 1], c)
  {
    var m := UpMemberWalkAt(g, depth, n, Some(c), 0);
  }

  // ---------------------------------------------------------------------
  // down

  /** The `i`-th walk of `down` from the group: the member, then the
      walks down from its children. */
  lemma DownMemberWalkAt(g: Graph, height: map<NodeId, nat>, n: NodeId, i: nat) returns (m: NodeId)
    requires DownRanked(g, height) && n in g
    requires i < |CollectInclClones(g, n)|
    ensures m == CollectInclClones(g, n)[|CollectInclClones(g, n)| - 1 - i]
    ensures m in g && Orig(g, m) == Orig(g, n)
    ensures DownMemberWalks(g, height, n)[i] == [m] + Flatten(DownChildWalks(g, height, n, m))
  {
    CollectedAreGroup(g, n);
    m := CollectInclClones(g, n)[|CollectInclClones(g, n)| - 1 - i];
  }

  /** The `k`-th walk down from the children of `m`. */
  lemma DownChildWalkAt(g: Graph, height: map<NodeId, nat>, n: NodeId, m: NodeId, k: nat)
    requires DownRanked(g, height) && n in g && m in g && Orig(g, m) == Orig(g, n)
    requires k < |g[m].childRefs|
    ensures DownChildWalks(g, height, n, m)[k] == Down(g, height, g[m].childRefs[|g[m].childRefs| - 1 - k])
  {
  }

  /** A report of `down` comes from the walk of one group member: the
      member itself or the walks down from its children. */
  lemma DownReportMember(g: Graph, height: map<NodeId, nat>, n: NodeId, x: NodeId) returns (m: NodeId)
    requires DownRanked(g, height) && n in g
    requires x in Down(g, height, n)
    ensures m in g && Orig(g, m) == Orig(g, n)
    ensures x == m || x in Flatten(DownChildWalks(g, height, n, m))
  {
    var i := FlattenIndex(DownMemberWalks(g, height, n), x);
    m := DownMemberWalkAt(g, height, n, i);
  }

  /** A report of the walks down from the children of `m` comes from the
      walk down from one child. */
  lemma DownReportChild(g: Graph, height: map<NodeId, nat>, n: NodeId, m: NodeId, x: NodeId) returns (j: nat)
    requires DownRanked(g, height) && n in g && m in g && Orig(g, m) == Orig(g, n)
    requires x in Flatten(DownChildWalks(g, height, n, m))
    ensures j < |g[m].childRefs| && x in Down(g, height, g[m].childRefs[j])
  {
    var k := FlattenIndex(DownChildWalks(g, height, n, m), x);
    DownChildWalkAt(g, height, n, m, k);
    j := |g[m].childRefs| - 1 - k;
  }

  /** Soundness of `down`, one report at a time. */
  lemma {:induction false} DownReportSound(g: Graph, height: map<NodeId, nat>, n: NodeId, x: NodeId)
    requires DownRanked(g, height) && n in g
    requires x in Down(g, height, n)
    ensures x in g && Reaches(g, height, n, x)
    decreases height[Orig(g, n)]
  {
    var m := DownReportMember(g, height, n, x);
    if x != m {
      var j := DownReportChild(g, height, n, m, x);
      DownReportSound(g, height, g[m].childRefs[j], x);
    }
  }

  /** Soundness of `down`: every report is a node of the graph reachable
      downward from the start node. */
  lemma DownSound(g: Graph, height: map<NodeId, nat>, n: NodeId)
    requires DownRanked(g, height) && n in g
    ensures forall x | x in Down(g, height, n) :: x in g && Reaches(g, height, n, x)
  {
    forall x | x in Down(g, height, n)
      ensures x in g && Reaches(g, height, n, x)
    {
      DownReportSound(g, height, n, x);
    }
  }

  /** `down` reports every member of the start node's clone group, the
      start node included. */
  lemma DownReportsGroup(g: Graph, height: map<NodeId, nat>, n: NodeId)
    requires DownRanked(g, height) && n in g
    ensures forall x | x in CollectInclClones(g, n) :: x in Down(g, height, n)
    ensures n in Down(g, height, n)
  {
    var members := CollectInclClones(g, n);
    forall x | x in members
      ensures x in Down(g, height, n)
    {
      var i :| 0 <= i < |members| && members[i] == x;
      var k := |members| - 1 - i;
      var _ := DownMemberWalkAt(g, height, n, k);
      FlattenContains(DownMemberWalks(g, height, n), k, x);
    }
    GroupIsCollected(g, n, n);
  }

  /** Walking down from a child of any group member is part of walking down
      from the group: `down` recurses into the children of the original and
      of every clone alike. */
  lemma DownContainsChildWalk(g: Graph, height: map<NodeId, nat>, n: NodeId, m: NodeId, j: nat, x: NodeId)
    requires DownRanked(g, height) && n in g && m in g && Orig(g, m) == Orig(g, n)
    requires j < |g[m].childRefs|
    requires x in Down(g, height, g[m].childRefs[j])
    ensures x in Down(g, height, n)
  {
    var walks := DownChildWalks(g, height, n, m);
    var jj := |g[m].childRefs| - 1 - j;
    DownChildWalkAt(g, height, n, m, jj);
    FlattenContains(walks, jj, x);
    var i := MemberIndex(g, n, m);
    var k := |CollectInclClones(g, n)| - 1 - i;
    var _ := DownMemberWalkAt(g, height, n, k);
    FlattenContains(DownMemberWalks(g, height, n), k, x);
  }

  /** Completeness of `down`: every node reachable downward is reported. */
  lemma {:induction false} DownComplete(g: Graph, height: map<NodeId, nat>, n: NodeId, x: NodeId)
    requires DownRanked(g, height) && n in g && x in g
    requires Reaches(g, height, n, x)
    ensures x in Down(g, height, n)
    decreases height[Orig(g, n)]
  {
    if Orig(g, x) == Orig(g, n) {
      var i := MemberIndex(g, n, x);
      DownReportsGroup(g, height, n);
    } else {
      var m, j :| m in g && Orig(g, m) == Orig(g, n) && 0 <= j < |g[m].childRefs| &&
        Reaches(g, height, g[m].childRefs[j], x);
      DownComplete(g, height, g[m].childRefs[j], x);
      DownContainsChildWalk(g, height, n, m, j, x);
    }
  }

  /** `down` reports exactly the nodes reachable downward from the start. */
  lemma DownExactlyReachable(g: Graph, height: map<NodeId, nat>, n: NodeId, x: NodeId)
    requires DownRanked(g, height) && n in g && x in g
    ensures x in Down(g, height, n) <==> Reaches(g, height, n, x)
  {
    DownSound(g, height, n);
    if Reaches(g, height, n, x) {
      DownComplete(g, height, n, x);
    }
  }

  lemma {:induction false} ReachesChild(g: Graph, height: map<NodeId, nat>, n: NodeId, x: NodeId, j: nat)
    requires DownRanked(g, height) && n in g && x in g && j < |g[x].childRefs|
    requires Reaches(g, height, n, x)
    ensures Reaches(g, height, n, g[x].childRefs[j])
    decreases height[Orig(g, n)]
  {
    var c := g[x].childRefs[j];
    if Orig(g, x) == Orig(g, n) {
      assert Reaches(g, height, g[x].childRefs[j], c);
    } else {
      var m, i :| m in g && Orig(g, m) == Orig(g, n) && 0 <= i < |g[m].childRefs| &&
        Reaches(g, height, g[m].childRefs[i], x);
      ReachesChild(g, height, g[m].childRefs[i], x, j);
    }
  }

  lemma {:induction false} ReachesGroup(g: Graph, height: map<NodeId, nat>, n: NodeId, x: NodeId, y: NodeId)
    requires DownRanked(g, height) && n in g && x in g && y in g && Orig(g, y) == Orig(g, x)
    requires Reaches(g, height, n, x)
    ensures Reaches(g, height, n, y)
    decreases height[Orig(g, n)]
  {
    if Orig(g, x) != Orig(g, n) {
      var m, i :| m in g && Orig(g, m) == Orig(g, n) && 0 <= i < |g[m].childRefs| &&
        Reaches(g, height, g[m].childRefs[i], x);
      ReachesGroup(g, height, g[m].childRefs[i], x, y);
    }
  }

  /** The nodes `down` reports contain the start node and are closed under
      `childRefs` and under clone expansion. */
  lemma DownClosed(g: Graph, height: map<NodeId, nat>, n: NodeId, x: NodeId)
    requires DownRanked(g, height) && n in g
    requires x in Down(g, height, n)
    ensures x in g
    ensures n in Down(g, height, n)
    ensures forall j | 0 <= j < |g[x].childRefs| :: g[x].childRefs[j] in Down(g, height, n)
    ensures forall y | y in CollectInclClones(g, x) :: y in Down(g, height, n)
  {
    DownSound(g, height, n);
    DownReportsGroup(g, height, n);
    DownExactlyReachable(g, height, n, x);
    forall j | 0 <= j < |g[x].childRefs|
      ensures g[x].childRefs[j] in Down(g, height, n)
    {
      ReachesChild(g, height, n, x, j);
      DownExactlyReachable(g, height, n, g[x].childRefs[j]);
    }
    CollectedAreGroup(g, x);
    forall y | y in CollectInclClones(g, x)
      ensures y in Down(g, height, n)
    {
      ReachesGroup(g, height, n, x, y);
      DownExactlyReachable(g, height, n, y);
    }
  }

  /** Members are visited from the last to the first: the first report of
      `down` is the last member of the group. */
  lemma DownStartsWithLastMember(g: Graph, height: map<NodeId, nat>, n: NodeId)
    requires DownRanked(g, height) && n in g
    ensures var members := CollectInclClones(g, n);
      |Down(g, height, n)| > 0 && Down(g, height, n)[0] == members[|members| - 1]
  {
    var m := DownMemberWalkAt(g, height, n, 0);
  }

  // ---------------------------------------------------------------------
  // clone groups

  /** The walks up from the parents of a member are the same whichever
      member of the group the walk started from. */
  lemma UpParentWalksAgree(g: Graph, depth: map<NodeId, nat>, a: NodeId, b: NodeId, m: NodeId)
    requires UpRanked(g, depth) && a in g && b in g && m in g
    requires Orig(g, m) == Orig(g, a) && Orig(g, a) == Orig(g, b)
    ensures UpParentWalks(g, depth, a, m) == UpParentWalks(g, depth, b, m)
  {
    forall k | 0 <= k < |g[m].parents|
      ensures UpParentWalks(g, depth, a, m)[k] == UpParentWalks(g, depth, b, m)[k]
    {
      UpParentWalkAt(g, depth, a, m, k);
      UpParentWalkAt(g, depth, b, m, k);
    }
  }

  /** The walks down from the children of a member are the same whichever
      member of the group the walk started from. */
  lemma DownChildWalksAgree(g: Graph, height: map<NodeId, nat>, a: NodeId, b: NodeId, m: NodeId)
    requires DownRanked(g, height) && a in g && b in g && m in g
    requires Orig(g, m) == Orig(g, a) && Orig(g, a) == Orig(g, b)
    ensures DownChildWalks(g, height, a, m) == DownChildWalks(g, height, b, m)
  {
    forall k | 0 <= k < |g[m].childRefs|
      ensures DownChildWalks(g, height, a, m)[k] == DownChildWalks(g, height, b, m)[k]
    {
      DownChildWalkAt(g, height, a, m, k);
      DownChildWalkAt(g, height, b, m, k);
    }
  }

  /** `up` depends on the start node only through its clone group: it starts
      from `collectInclClones`, so a clone walks exactly as its original and
      its other clones do. */
  lemma UpGroupAgree(g: Graph, depth: map<NodeId, nat>, a: NodeId, b: NodeId, child: Option<NodeId>)
    requires UpRanked(g, depth) && a in g && b in g && Orig(g, a) == Orig(g, b)
    requires child.Some? ==> child.value in g
    ensures Up(g, depth, a, child) == Up(g, depth, b, child)
  {
    CollectsAlike(g, a, b);
    var ua := UpMemberWalks(g, depth, a, child);
    var ub := UpMemberWalks(g, depth, b, child);
    forall i | 0 <= i < |ua|
      ensures ua[i] == ub[i]
    {
      var m := UpMemberWalkAt(g, depth, a, child, i);
      var m' := UpMemberWalkAt(g, depth, b, child, i);
      UpParentWalksAgree(g, depth, a, b, m);
    }
    assert ua == ub;
  }

  /** `down` depends on the start node only through its clone group. */
  lemma DownGroupAgree(g: Graph, height: map<NodeId, nat>, a: NodeId, b: NodeId)
    requires DownRanked(g, height) && a in g && b in g && Orig(g, a) == Orig(g, b)
    ensures Down(g, height, a) == Down(g, height, b)
  {
    CollectsAlike(g, a, b);
    var da := DownMemberWalks(g, height, a);
    var db := DownMemberWalks(g, height, b);
    forall i | 0 <= i < |da|
      ensures da[i] == db[i]
    {
      var m := DownMemberWalkAt(g, height, a, i);
      var m' := DownMemberWalkAt(g, height, b, i);
      DownChildWalksAgree(g, height, a, b, m);
    }
    assert da == db;
  }
}

=== FILE: viewport.dfy ===
/** The list graph's viewport rules: where a link's ends lie relative to the
    visible area (a bit-packed classification), the clamps on column and
    scrollbar offsets, the pointer flags that gate interactions, and the
    active level. Pixel values are integers. */
module Viewport {
  import opened Wrappers

  // ---------------------------------------------------------------------
  // link ends outside the view

  /** The global row geometry and the height of the visible area. */
  datatype Geometry = Geometry(rowHeight: int, rowPadding: int, viewHeight: int)

  /** One end of a link: its node's position and visibility and the
      vertical offset of the node's column. */
  datatype LinkEnd = LinkEnd(nodeY: int, offsetY: int, hidden: bool)

  /** Where a link end lies: the reference classification the codes stand
      for. */
  datatype Position = Inside | AboveView | BelowView | HiddenNode

  /** A visible end is above the view when its row, less the padding, ends
      at or before the top edge; below when its row, past the padding,
      starts at or after the bottom edge. Above takes precedence. */
  function Classify(e: LinkEnd, geo: Geometry): Position {
    var y := e.nodeY + e.offsetY;
    if e.hidden then HiddenNode
    else if y + geo.rowHeight - geo.rowPadding <= 0 then AboveView
    else if y + geo.rowPadding >= geo.viewHeight then BelowView
    else Inside
  }

  /** The code `linkPointsOutside` uses for each position. */
  function PositionCode(p: Position): bv32 {
    match p
    case Inside => 0
    case AboveView => 1
    case BelowView => 2
    case HiddenNode => 16
  }

  /** `linkPointsOutside(end)`: 16 for a hidden node whatever its position,
      then 1 above, 2 below, 0 inside. */
  function LinkPointsOutside(e: LinkEnd, geo: Geometry): (r: bv32)
    ensures e.hidden ==> r == 16
    ensures r == 0 || r == 1 || r == 2 || r == 16
  {
    PositionCode(Classify(e, geo))
  }

  /** `pointsOutside(link)`: the source's code in the low bits, the
      target's shifted left by two. */
  function PointsOutside(source: LinkEnd, target: LinkEnd, geo: Geometry): bv32 {
    LinkPointsOutside(source, geo) | (LinkPointsOutside(target, geo) << 2)
  }

  /** Reading a packed value back: each end's position is told by its own
      bits, 1/2/16 for the source and 4/8/64 for the target. */
  function DecodeSource(v: bv32): Position {
    if v & 16 != 0 then HiddenNode
    else if v & 1 != 0 then AboveView
    else if v & 2 != 0 then BelowView
    else Inside
  }

  function DecodeTarget(v: bv32): Position {
    if v & 64 != 0 then HiddenNode
    else if v & 4 != 0 then AboveView
    else if v & 8 != 0 then BelowView
    else Inside
  }

  /** The packing is lossless: both ends' positions can be read back from
      the packed value. */
  lemma PackRoundTrip(source: Position, target: Position)
    ensures DecodeSource(PositionCode(source) | (PositionCode(target) << 2)) == source
    ensures DecodeTarget(PositionCode(source) | (PositionCode(target) << 2)) == target
  {
  }

  /** The single-bit tests consumers apply: `& 4` is set exactly when the
      target is above the view and `& 8` exactly when it is below (a hidden
      target, 64, sets neither); likewise `& 1` and `& 2` for the source. */
  lemma PointsOutsideBits(source: LinkEnd, target: LinkEnd, geo: Geometry)
    ensures var v := PointsOutside(source, target, geo);
      && (v & 4 != 0 <==> Classify(target, geo) == AboveView)
      && (v & 8 != 0 <==> Classify(target, geo) == BelowView)
      && (v & 64 != 0 <==> Classify(target, geo) == HiddenNode)
      && (v & 1 != 0 <==> Classify(source, geo) == AboveView)
      && (v & 2 != 0 <==> Classify(source, geo) == BelowView)
      && (v & 16 != 0 <==> Classify(source, geo) == HiddenNode)
      && DecodeSource(v) == Classify(source, geo)
      && DecodeTarget(v) == Classify(target, geo)
  {
    PackRoundTrip(Classify(source, geo), Classify(target, geo));
    PackBits(Classify(source, geo), Classify(target, geo));
  }

  lemma PackBits(source: Position, target: Position)
    ensures var v := PositionCode(source) | (PositionCode(target) << 2);
      && (v & 4 != 0 <==> target == AboveView)
      && (v & 8 != 0 <==> target == BelowView)
      && (v & 64 != 0 <==> target == HiddenNode)
      && (v & 1 != 0 <==> source == AboveView)
      && (v & 2 != 0 <==> source == BelowView)
      && (v & 16 != 0 <==> source == HiddenNode)
  {
  }

  /** The eleven values the method's documentation lists. */
  const DocumentedValues: set<bv32> := {0, 1, 2, 4, 8, 5, 6, 9, 10, 16, 64}

  /** The encoding produces more values than the eleven documented: a
      hidden end combines with any position of the other end, e.g. a hidden
      source with a target above the view gives 20. */
  lemma UndocumentedCombination(source: LinkEnd, target: LinkEnd, geo: Geometry)
    requires source.hidden && Classify(target, geo) == AboveView
    ensures PointsOutside(source, target, geo) == 20
    ensures PointsOutside(source, target, geo) !in DocumentedValues
  {
  }

  // ---------------------------------------------------------------------
  // scroll clamps

  /** `Math.max(Math.min(v, hi), lo)`. */
  function ClampHighFirst(v: int, lo: int, hi: int): (r: int)
    ensures lo <= hi ==> lo <= r <= hi
    ensures lo <= v <= hi ==> r == v
  {
    var m := if v < hi then v else hi;
    if m > lo then m else lo
  }

  /** `Math.min(Math.max(v, lo), hi)`. */
  function ClampLowFirst(v: int, lo: int, hi: int): (r: int)
    ensures lo <= hi ==> lo <= r <= hi
    ensures lo <= v <= hi ==> r == v
  {
    var m := if v > lo then v else lo;
    if m < hi then m else hi
  }

  /** On a non-empty interval both clamps give the interval's point
      nearest to `v`. */
  lemma ClampIsNearest(v: int, lo: int, hi: int, x: int)
    requires lo <= x <= hi
    ensures Abs(ClampHighFirst(v, lo, hi) - v) <= Abs(x - v)
    ensures ClampLowFirst(v, lo, hi) == ClampHighFirst(v, lo, hi)
  {
  }

  function Abs(x: int): nat {
    if x < 0 then -x else x
  }

  /** A column's node offset (zero or negative) and scrollable height. */
  datatype Column = Column(scrollTop: int, scrollHeight: int)

  /** `mousewheelColumn`: a column with content to scroll moves by the
      wheel delta, kept between `-scrollHeight` and 0; other columns stay. */
  function MousewheelColumn(c: Column, deltaY: int): (r: Column)
    ensures r.scrollHeight == c.scrollHeight
    ensures c.scrollHeight <= 0 ==> r == c
    ensures c.scrollHeight > 0 ==> -c.scrollHeight <= r.scrollTop <= 0
    ensures c.scrollHeight > 0 && -c.scrollHeight <= c.scrollTop + deltaY <= 0 ==>
      r.scrollTop == c.scrollTop + deltaY
    ensures c.scrollHeight > 0 && c.scrollTop + deltaY > 0 ==> r.scrollTop == 0
    ensures c.scrollHeight > 0 && c.scrollTop + deltaY < -c.scrollHeight ==> r.scrollTop == -c.scrollHeight
  {
    if c.scrollHeight > 0 then c.(scrollTop := ClampHighFirst(c.scrollTop + deltaY, -c.scrollHeight, 0))
    else c
  }

  /** Wheel steps that stay inside the scroll range add up: two steps are
      one step by the sum. */
  lemma MousewheelAdds(c: Column, d1: int, d2: int)
    requires c.scrollHeight > 0
    requires -c.scrollHeight <= c.scrollTop + d1 <= 0
    requires -c.scrollHeight <= c.scrollTop + d1 + d2 <= 0
    ensures MousewheelColumn(MousewheelColumn(c, d1), d2) == MousewheelColumn(c, d1 + d2)
  {
  }

  // ---------------------------------------------------------------------
  // pointer flags

  /** A column's scrollbar: its offset, range, and where the pointer went
      down on it. */
  datatype Scrollbar = Scrollbar(scrollTop: int, scrollHeight: int, clientY: int)

  /** The pointer flags of the list graph; `activeScrollbar` names the
      column whose scrollbar is held. */
  datatype Pointer = Pointer(
    noInteractions: bool,
    dragging: bool,
    mouseDownOnContextMenu: bool,
    activeScrollbar: Option<nat>)

  datatype Ui = Ui(pointer: Pointer, scrollbars: map<nat, Scrollbar>)

  /** `interactionWrapper`: whether the wrapped callback runs. */
  predicate InteractionAllowed(p: Pointer) {
    !p.noInteractions
  }

  /** `dragStartHandler`: the first drag start blocks interactions. */
  function DragStart(p: Pointer): (r: Pointer)
    ensures r.dragging && r.mouseDownOnContextMenu == p.mouseDownOnContextMenu
    ensures r.activeScrollbar == p.activeScrollbar
    ensures !p.dragging ==> r.noInteractions
    ensures p.dragging ==> r == p
  {
    if !p.dragging then p.(dragging := true, noInteractions := true) else p
  }

  /** `dragEndHandler`: ending a drag unblocks interactions. */
  function DragEnd(p: Pointer): (r: Pointer)
    ensures !r.dragging && r.mouseDownOnContextMenu == p.mouseDownOnContextMenu
    ensures r.activeScrollbar == p.activeScrollbar
    ensures p.dragging ==> InteractionAllowed(r)
    ensures !p.dragging ==> r == p
  {
    if p.dragging then p.(dragging := false, noInteractions := false) else p
  }

  /** Drags keep the two flags equal when they start equal: interactions
      are blocked exactly while a drag is under way. */
  lemma DragKeepsFlagsInSync(p: Pointer)
    requires p.noInteractions == p.dragging
    ensures DragStart(p).noInteractions == DragStart(p).dragging
    ensures DragEnd(p).noInteractions == DragEnd(p).dragging
    ensures !InteractionAllowed(DragStart(p))
    ensures InteractionAllowed(DragEnd(DragStart(p)))
  {
  }

  /** `noDragging`: a held scrollbar or a press on the context menu
      suppresses dragging the graph. */
  predicate NoDragging(p: Pointer) {
    p.activeScrollbar.Some? || p.mouseDownOnContextMenu
  }

  /** `scrollbarMouseDown`: hold a column's scrollbar, remember where the
      press happened and block interactions. */
  function ScrollbarMouseDown(ui: Ui, column: nat, clientY: int): (r: Ui)
    requires column in ui.scrollbars
    ensures r.pointer == ui.pointer.(noInteractions := true, activeScrollbar := Some(column))
    ensures r.scrollbars.Keys == ui.scrollbars.Keys
    ensures r.scrollbars[column] == ui.scrollbars[column].(clientY := clientY)
    ensures forall c | c in ui.scrollbars && c != column :: r.scrollbars[c] == ui.scrollbars[c]
    ensures NoDragging(r.pointer) && !InteractionAllowed(r.pointer)
  {
    Ui(ui.pointer.(noInteractions := true, activeScrollbar := Some(column)),
       ui.scrollbars[column := ui.scrollbars[column].(clientY := clientY)])
  }

  /** `globalMouseUp`, scrollbar part: the pointer and the flags are
      released; a held scrollbar moves by the pointer's travel, kept within
      `[0, scrollHeight]`, and is let go. */
  function GlobalMouseUp(ui: Ui, clientY: int): (r: Ui)
    requires ui.pointer.activeScrollbar.Some? ==> ui.pointer.activeScrollbar.value in ui.scrollbars
    ensures !r.pointer.noInteractions && !r.pointer.mouseDownOnContextMenu
    ensures r.pointer.activeScrollbar.None? && !NoDragging(r.pointer)
    ensures r.pointer.dragging == ui.pointer.dragging
    ensures r.scrollbars.Keys == ui.scrollbars.Keys
    ensures forall c | c in ui.scrollbars && Some(c) != ui.pointer.activeScrollbar ::
      r.scrollbars[c] == ui.scrollbars[c]
    ensures ui.pointer.activeScrollbar.Some? ==>
      var c := ui.pointer.activeScrollbar.value;
      var bar := ui.scrollbars[c];
      && r.scrollbars[c].scrollHeight == bar.scrollHeight
      && r.scrollbars[c].clientY == bar.clientY
      && (bar.scrollHeight >= 0 ==> 0 <= r.scrollbars[c].scrollTop <= bar.scrollHeight)
      && (0 <= bar.scrollTop - (bar.clientY - clientY) <= bar.scrollHeight ==>
            r.scrollbars[c].scrollTop == bar.scrollTop + (clientY - bar.clientY))
  {
    var released := ui.pointer.(noInteractions := false, mouseDownOnContextMenu := false);
    match ui.pointer.activeScrollbar
    case None => Ui(released, ui.scrollbars)
    case Some(c) =>
      var bar := ui.scrollbars[c];
      var deltaY := bar.clientY - clientY;
      var top := ClampLowFirst(bar.scrollTop - deltaY, 0, bar.scrollHeight);
      Ui(released.(activeScrollbar := None), ui.scrollbars[c := bar.(scrollTop := top)])
  }

  /** Pressing a scrollbar and releasing the pointer where it went down
      leaves the scrollbar where it was (when it was in range) and every
      flag but `dragging` released. */
  lemma ScrollbarClickRoundTrip(ui: Ui, column: nat, clientY: int)
    requires column in ui.scrollbars
    requires 0 <= ui.scrollbars[column].scrollTop <= ui.scrollbars[column].scrollHeight
    ensures var r := GlobalMouseUp(ScrollbarMouseDown(ui, column, clientY), clientY);
      && r.scrollbars[column] == ui.scrollbars[column].(clientY := clientY)
      && r.pointer == ui.pointer.(noInteractions := false, mouseDownOnContextMenu := false, activeScrollbar := None)
  {
  }

  // ---------------------------------------------------------------------
  // active level

  /** The new active level and the level indices blurred and focused. */
  datatype LevelChange = LevelChange(level: int, blurred: int, focused: int)

  /** The `d3ListGraphActiveLevel` handler: the active level becomes the
      requested one, raised to 0 if negative; with a rooted node the old and
      new levels count from the root's depth, otherwise they are shifted
      back by `noRootActiveLevelDiff`. */
  function SetActiveLevel(oldLevel: int, nextLevel: int, rootDepth: Option<int>, noRootDiff: int): (r: LevelChange)
    ensures r.level >= 0 && r.level >= nextLevel
    ensures nextLevel >= 0 ==> r.level == nextLevel
    ensures nextLevel < 0 ==> r.level == 0
    ensures rootDepth.Some? ==> r.blurred == rootDepth.value + oldLevel && r.focused == rootDepth.value + r.level
    ensures rootDepth.None? ==> r.blurred == oldLevel - noRootDiff && r.focused == r.level - noRootDiff
  {
    var level := if nextLevel > 0 then nextLevel else 0;
    match rootDepth
    case Some(d) => LevelChange(level, d + oldLevel, d + level)
    case None => LevelChange(level, oldLevel - noRootDiff, level - noRootDiff)
  }

  /** With the root unchanged, each change blurs exactly the level the
      previous change focused. */
  lemma ActiveLevelHandsOver(oldLevel: int, next1: int, next2: int, rootDepth: Option<int>, noRootDiff: int)
    ensures var first := SetActiveLevel(oldLevel, next1, rootDepth, noRootDiff);
      SetActiveLevel(first.level, next2, rootDepth, noRootDiff).blurred == first.focused
  {
  }
}

=== FILE: wrappers.dfy ===
/** Optional values: `None` stands for JavaScript's `undefined` wherever the
    source tests for an absent argument or field. */
module Wrappers {

  datatype Option<+T> = None | Some(value: T)
}
